=== FILE: README.md ===
# Helpdesk client model

A Dafny model of the helpdesk web client, which serves three roles:

- **staff** file reports;
- **admins** process reports and manage staff accounts;
- **the master** oversees everything and manages admins and staff.

All state lives in one client-side store, `useUserStore`. It holds:

- the session;
- the user directory;
- the reports;
- the notifications;
- one global chat.

The model has two parts:

- **The store.** It is one immutable `State` record. Each store action is a pure function from state to state.
- **The pages and components.** Each handler or derived value they compute is a function over that state. Examples are the login form, the dashboards, the report and user pages, the report tables, the navbar, the profile dialog, the chat window and the FAQ panel.

Anything the source reads from outside is an explicit parameter:

- Every `Date.now()` id and every `new Date()` timestamp is a parameter. Timestamps are integer epoch milliseconds.
- A `confirm()` answer is a boolean parameter.
- A chosen file is the data URL the file reader yields for it.
- Effects on the router and on `alert()` are returned as values.

Modules:

| module | models |
|---|---|
| `Optional`, `Seqs`, `Text` | the JavaScript building blocks the source relies on: `undefined`, `x \|\| y`, `filter`/`find`/`findIndex`, `trim`, `toLowerCase`, `includes`, `substring` |
| `Types` | the records of `types/index.ts`, the `Omit<…>` drafts and `Partial<…>` patches, and object spread as a merge |
| `Store`, `StoreLaws` | `store/userStore.ts` and the laws relating its actions |
| `ReportTable`, `IncomingReportsTable`, `Faqs`, `Navbar`, `ChatWindow`, `ProfileModal` | the components of the same names |
| `ReportQueries` | the counts and the "newest pending" query both dashboards compute |
| `LoginPage`, `AdminDashboard`, `MasterDashboard`, `ReportsPage`, `UsersPage`, `CreateReport`, `StaffDashboard` | the pages |

## Model

| member | source | states |
|---|---|---|
| Optional.OrElse | components/ReportTable.tsx:78 | `s \|\| fallback`: a present non-empty string wins; an absent or empty one yields the fallback |
| Optional.Truthy | components/ProfileModal.tsx:74 | `s \|\| undefined` keeps a string exactly when it is present and non-empty |
| Seqs.Filter | app/admin/reports/page.tsx:35 | `filter` keeps every element that satisfies the predicate and nothing else, and never grows the list |
| Seqs.FindIndex | components/ReportTable.tsx:66 | the index found satisfies the predicate and no earlier index does; when nothing is found, no element satisfies it |
| Seqs.Find | components/ReportTable.tsx:66 | `find` succeeds exactly when some element satisfies the predicate, and returns such an element of the list |
| Seqs.FilterIsSubsequence | app/admin/reports/page.tsx:35 | a filter's result keeps its input's order (proved by induction) |
| Seqs.FilterLength | components/Navbar.tsx:37 | `filter(p).length` equals an independent count of the elements satisfying `p` (proved by induction) |
| Seqs.FilterMultiset | app/admin/dashboard/page.tsx:32 | a filter keeps each satisfying element with its full multiplicity and drops each other element |
| Seqs.Count | components/Navbar.tsx:37 | a count never exceeds the length, and it is zero exactly when no element satisfies the predicate |
| Text.Lower | components/FAQs.tsx:15 | `toLowerCase` keeps the length, turns each upper-case ASCII letter into its own lower-case letter (code point + 32), and changes no other character |
| Text.LowerIdempotent | components/FAQs.tsx:15 | lower-casing twice is lower-casing once |
| Text.Contains | components/FAQs.tsx:15-16 | `includes` succeeds exactly when the needle occurs at some position of the haystack (proved through the scan's recursive calls) |
| Text.Trim | components/ChatWindow.tsx:27-31 | `trim` returns a slice of its input with no white space at either end; it is empty exactly when the input is all white space |
| Text.TrimIdempotent | components/ChatWindow.tsx:31 | trimming a trimmed string changes nothing |
| Text.Prefix | components/IncomingReportsTable.tsx:105 | `substring(0, n)` is a prefix of length `min(n, length)` |
| Types.StatusNameInjective | types/index.ts:14 | the four status strings are pairwise distinct, so comparing names compares statuses |
| Types.AllIsNoStatus | app/admin/reports/page.tsx:14 | the filter value `all` is no status name |
| Types.MergeLaws | store/userStore.ts:118-122 | a spread with `{}` is the identity, and a second spread of the same partial changes nothing further |
| Store.Login | store/userStore.ts:64-74 | login succeeds exactly for a seeded email with the demo password; success sets that seeded user and the authenticated flag and touches nothing else; failure leaves the state unchanged |
| Store.Logout | store/userStore.ts:75-77 | logout clears the user, the flag and the notifications and keeps the directory, reports and chat |
| Store.UpdateProfile | store/userStore.ts:78-83 | the partial is merged into the session user only; the directory is untouched; with nobody signed in nothing changes |
| Store.AddNotification | store/userStore.ts:84-92 | the new notification, with the given id, goes in front of the unchanged older ones |
| Store.MarkNotificationRead | store/userStore.ts:93-97 | exactly the notifications with that id become read; the rest and the order are unchanged |
| Store.GetAllUsers | store/userStore.ts:98-108 | the directory entries the viewer's role may see (master: every non-master; admin: staff; otherwise none), in directory order, and all of them |
| Store.AddUser | store/userStore.ts:109-117 | the new account with the fresh id goes after the unchanged existing ones |
| Store.UpdateUser | store/userStore.ts:118-122 | entries with that id are merged with the partial; all others are unchanged |
| Store.DeleteUser | store/userStore.ts:123-127 | no entry with that id is left; every other entry survives in order; reports are untouched |
| Store.NewReport | store/userStore.ts:129-134 | the stored report is `pending` whatever status the caller passed, and carries the fresh id and time and the caller's other fields |
| Store.AddReport | store/userStore.ts:128-144 | the new report goes first, ahead of the unchanged old list, and one unread info notification goes first |
| Store.Stamped | store/userStore.ts:148 | `updatedAt` is the update time even when the partial tried to set it |
| Store.UpdatedReports | store/userStore.ts:146-150 | reports with that id are merged and stamped; the others are unchanged |
| Store.UpdateReport | store/userStore.ts:145-160 | the list is updated as above; a notification is added exactly when a report with that id can be found afterwards, and its text names that found report's title and new status |
| Store.GetReportById | store/userStore.ts:161-163 | a report is returned exactly when one has that id, and it is the first report of the store with that id, as `find` returns it |
| Store.GetAllReports | store/userStore.ts:164-166 | every report of the store, in store order: unlike `getAllUsers` there is no role filter |
| Store.AddChatMessage | store/userStore.ts:167-176 | the message, with the fresh id and time, goes after the unchanged conversation |
| Store.GetChatMessages | store/userStore.ts:177-179 | the whole conversation in append order, unfiltered by sender or reader |
| StoreLaws.SeedLogins | store/userStore.ts:31-53 | the three seeded accounts log in with `password123`; a wrong password or an unknown email is refused |
| StoreLaws.LoginIgnoresDirectory | store/userStore.ts:68 | the login outcome does not depend on the live directory, so an account added with `addUser` cannot log in |
| StoreLaws.LoginLogout | store/userStore.ts:64-77 | logging in and then out leaves a signed-out state with the data kept and no notifications |
| StoreLaws.ProfileDivergesFromDirectory | store/userStore.ts:78-83 | after a profile rename, the session copy and the directory entry of the same user disagree |
| StoreLaws.UpdateUserUnknownId | store/userStore.ts:118-122 | updating an id nobody has changes nothing |
| StoreLaws.UpdateUserIdempotent | store/userStore.ts:118-122 | the same user update applied twice equals applying it once |
| StoreLaws.DeleteUserUnknownId | store/userStore.ts:123-127 | deleting an id nobody has changes nothing |
| StoreLaws.DeleteUserRemovesExactly | store/userStore.ts:123-127 | the directory shrinks by exactly the number of entries with that id |
| StoreLaws.AddThenDeleteUser | store/userStore.ts:109-127 | adding under a fresh id and deleting that id restores the directory |
| StoreLaws.CreatedMessageNamesTitle | store/userStore.ts:139 | the creation notification contains the report title |
| StoreLaws.UpdatedMessageNamesTitleAndStatus | store/userStore.ts:154 | the update notification contains the title and the new status |
| StoreLaws.AddReportForcesPending | store/userStore.ts:133 | a report submitted as `completed` is stored as `pending` |
| StoreLaws.AddReportThenGet | store/userStore.ts:128-163 | `getReportById` returns the report just added under its id |
| StoreLaws.UpdateReportUnknownId | store/userStore.ts:145-160 | updating a missing report changes nothing and raises no notification |
| StoreLaws.UpdateReportThenGet | store/userStore.ts:145-163 | after an update, `getReportById` finds a report with the update time and the new status |
| StoreLaws.UpdatedNotBeforeCreated | store/userStore.ts:148 | when the update leaves `createdAt` alone, with a clock that never runs backwards, `updatedAt` never precedes `createdAt` |
| StoreLaws.UpdateReportsIdempotent | store/userStore.ts:146-150 | the same report update applied twice yields the same list as applying it once |
| StoreLaws.MarkReadIdempotent | store/userStore.ts:93-97 | marking read twice equals marking it once |
| StoreLaws.NotificationsNewestFirst | store/userStore.ts:84-92 | after two additions, the later notification leads |
| StoreLaws.AddChatKeepsChronological | store/userStore.ts:167-176 | appending at a time not before the last message keeps the chat in time order |
| StoreLaws.ChatAppendOrder | store/userStore.ts:167-179 | messages appear in the order they were sent, after the earlier ones |
| ReportTable.StatusLabels | components/ReportTable.tsx:34-62 | the four statuses have four distinct labels; rejected shows the gray badge and no other status does |
| ReportTable.StatusBadge | components/ReportTable.tsx:34-48 | pending gets the red badge and only pending; rejected gets the gray class of the `default` branch, and only rejected does |
| ReportTable.StatusText | components/ReportTable.tsx:49-62 | no status falls to the `Tidak Diketahui` default, and the label reads `Pending` exactly for pending |
| ReportTable.StatusOptionsMatchLabels | components/ReportTable.tsx:183-186 | the status select offers each status exactly once, labelled as the badge labels it |
| ReportTable.UserName | components/ReportTable.tsx:64-68 | `N/A` for a missing or empty id; `User Tidak Ditemukan` for an id nobody has; otherwise the name of the first user with that id |
| ReportTable.AssignableUsers | components/ReportTable.tsx:91 | the assignee list is exactly the staff and admins, in directory order |
| ReportTable.HandleStatusChange | components/ReportTable.tsx:70-74 | a status change is forwarded, for that report, exactly when the page supplied an updater |
| ReportTable.HandleAssignClick | components/ReportTable.tsx:76-80 | the dialog opens on the report with its current assignee preselected |
| ReportTable.HandleAssignSubmit | components/ReportTable.tsx:82-89 | with a report and an updater, `{ assignedTo: id \|\| undefined }` is forwarded and the dialog closes; otherwise nothing changes |
| ReportTable.AssignUnchangedKeepsAssignee | components/ReportTable.tsx:76-89 | submitting the dialog unchanged forwards the report's assignee as it was |
| ReportTable.EmptyColSpan | components/ReportTable.tsx:123-133 | the nested-ternary `colSpan` of the empty row equals the number of header cells |
| ReportTable.Rows | components/ReportTable.tsx:120-210 | one row per report, or a single empty-message row; every row spans the header's width |
| IncomingReportsTable.StatusBadge | components/IncomingReportsTable.tsx:24-38 | the same badge as the report table's |
| IncomingReportsTable.StatusText | components/IncomingReportsTable.tsx:39-53 | the same label as the report table's, never the unknown one |
| IncomingReportsTable.UserName | components/IncomingReportsTable.tsx:54-57 | the first matching user's name, or `User Tidak Ditemukan` |
| IncomingReportsTable.UserNameAgainstReportTable | components/IncomingReportsTable.tsx:54-57 | for a non-empty id, the two tables name the creator alike |
| IncomingReportsTable.QueueId | components/IncomingReportsTable.tsx:105 | `#` followed by the first six characters of the id |
| IncomingReportsTable.Rows | components/IncomingReportsTable.tsx:95-141 | one row per report, or a single six-column empty row; every row is six columns wide |
| IncomingReportsTable.HandleDetailClick | components/IncomingReportsTable.tsx:59-62 | opens the staff detail for that id; the process dialog is untouched |
| IncomingReportsTable.HandleProcessClick | components/IncomingReportsTable.tsx:64-67 | opens the process dialog for that report; the staff detail is untouched |
| IncomingReportsTable.RowButtonsTargets | components/IncomingReportsTable.tsx:124-131 | a row's buttons target its report's creator and its report |
| Faqs.Search | components/FAQs.tsx:13-17 | the FAQ entries whose question or answer contains the term, ignoring case, in list order, and all of them |
| Faqs.EmptyTermKeepsAll | components/FAQs.tsx:13-17 | an empty term lists every entry |
| Faqs.SearchIgnoresTermCase | components/FAQs.tsx:15-16 | a term and its lower-cased form find the same entries |
| Faqs.Matches | components/FAQs.tsx:14-16 | an entry matches exactly when the lower-cased term occurs in its lower-cased question or its lower-cased answer |
| Faqs.ShowsNotFound | components/FAQs.tsx:57-80 | the not-found message replaces the list exactly when no entry matches |
| Faqs.ClearSearch | components/FAQs.tsx:45-52 | clearing hides the clear button and lists every FAQ |
| Faqs.Toggle | components/FAQs.tsx:19-29 | the entry's open state flips; every other entry keeps its state |
| Faqs.ToggleTwice | components/FAQs.tsx:19-29 | toggling an entry twice restores the open set |
| Navbar.RoleSegment | components/Navbar.tsx:79 | the role name, or `undefined` without a user |
| Navbar.Links | components/Navbar.tsx:78-114 | the dashboard link first; the reports, create-report and chat links each present exactly when its flag is set |
| Navbar.UnreadCount | components/Navbar.tsx:37 | exactly `notifications.filter((n) => !n.read).length`, at most the total |
| Navbar.BadgeShownIffUnread | components/Navbar.tsx:119-123 | the badge shows exactly when some notification is unread |
| Navbar.AddNotificationUnread | components/Navbar.tsx:37 | a new unread notification raises the count by one; a read one leaves it |
| Navbar.MarkReadUnread | components/Navbar.tsx:37 | marking read lowers the count by exactly the unread notifications with that id |
| Navbar.DropdownItems | components/Navbar.tsx:39-59 | profile first, logout last, and settings exactly for non-staff viewers |
| Navbar.SettingsRoute | components/Navbar.tsx:29-35 | admins and masters go to their `/setting` page; everyone else goes nowhere |
| Navbar.SettingsEntryLeadsSomewhere | components/Navbar.tsx:29-59 | a settings entry shown to a signed-in user navigates; without a user it is shown but inert |
| Navbar.HandleLogout | components/Navbar.tsx:24-27 | the store logs out, which zeroes the badge, and the router goes to `/login` |
| Navbar.AvatarSrc | components/Navbar.tsx:131 | the user's non-empty avatar, otherwise the placeholder |
| Navbar.ToggleMobileMenu | components/Navbar.tsx:144 | the mobile menu flips |
| ChatWindow.HandleSendMessage | components/ChatWindow.tsx:25-35 | with a signed-in user and non-blank text, the trimmed text is appended and the box cleared; otherwise nothing changes |
| ChatWindow.SentMessageIsTrimmed | components/ChatWindow.tsx:27-31 | the sent message is the last one, non-blank, and trimmed at both ends |
| ChatWindow.SendDisabled | components/ChatWindow.tsx:113 | the send button is disabled exactly when pressing it would change nothing |
| ChatWindow.Sender | components/ChatWindow.tsx:38 | the sender is found exactly when some directory entry has the id, and it is the first such entry, as `find` returns it |
| ChatWindow.UserAvatar | components/ChatWindow.tsx:37-40 | a known sender's non-empty avatar, otherwise the placeholder; never empty |
| ChatWindow.SenderRole | components/ChatWindow.tsx:42-45 | the sender's role name, or `unknown` once the sender has left the directory |
| ChatWindow.IsOwn | components/ChatWindow.tsx:63 | a message is the reader's own exactly when its sender id is the signed-in user's; with nobody signed in no message is |
| ChatWindow.SenderHeading | components/ChatWindow.tsx:80 | `Anda` for the reader's own messages; otherwise the stored name and the sender's role; the heading reads `Anda` exactly for own messages |
| ChatWindow.OwnMessagesFollowTheSender | components/ChatWindow.tsx:63-80 | a sent message shows as the sender's own to them and as not-own to every other user |
| ChatWindow.EmptyText | components/ChatWindow.tsx:57-58 | the placeholder shows exactly when the conversation is empty |
| ProfileModal.FormOf | components/ProfileModal.tsx:16-25 | the form holds the user's name, email and address (empty when absent), with blank password fields |
| ProfileModal.Open | components/ProfileModal.tsx:16-25 | the dialog starts from the user's profile and avatar, with no file chosen |
| ProfileModal.Reset | components/ProfileModal.tsx:27-39 | reopening refills the form and preview from the user and keeps a chosen file |
| ProfileModal.HandleFileChange | components/ProfileModal.tsx:43-56 | a chosen file becomes the preview; clearing the picker restores the user's avatar |
| ProfileModal.NewAvatar | components/ProfileModal.tsx:68-74 | the submitted avatar is the preview when a file was chosen, otherwise the current avatar, and never empty |
| ProfileModal.HandleSubmit | components/ProfileModal.tsx:58-79 | mismatched new passwords alert and change nothing; otherwise the session profile gets the form fields and the avatar, the id and role are kept, and nothing but the session user changes: directory, reports, notifications, chat and the signed-in flag are kept |
| ProfileModal.PasswordsAreNeverStored | components/ProfileModal.tsx:62-75 | accepted forms that differ only in their password fields store the same state |
| ProfileModal.UntouchedSaveKeepsProfile | components/ProfileModal.tsx:27-79 | saving without edits keeps the profile, apart from normalising the address and avatar |
| ProfileModal.PickedFileBecomesAvatar | components/ProfileModal.tsx:43-75 | a picked file is the saved avatar |
| ReportQueries.CountsPartition | app/admin/dashboard/page.tsx:25-28 | the four status counts sum to the number of reports (proved by induction) |
| ReportQueries.CountStatus | app/admin/dashboard/page.tsx:26-28 | the per-status count is the length of the list filtered by that status, at most the number of reports |
| ReportQueries.Insert | app/admin/dashboard/page.tsx:33 | inserting into a newest-first list keeps it newest first and adds exactly that report |
| ReportQueries.SortNewestFirst | app/admin/dashboard/page.tsx:33 | the sort is a newest-first permutation of its input |
| ReportQueries.PendingNewestFirst | app/admin/dashboard/page.tsx:31-33 | a newest-first permutation of the pending reports |
| ReportQueries.RecentPending | app/admin/dashboard/page.tsx:31-34 | `min(pending, 5)` pending store reports, newest first, each shown no more often than the pending list holds it, with no omitted pending report newer than one shown |
| ReportsPage.ApplyStatusParam | app/admin/reports/page.tsx:22-27 | a present, non-empty `status` parameter replaces the filter; otherwise the filter is kept |
| ReportsPage.FilteredReports | app/admin/reports/page.tsx:33-35 | `all` lists every report; any other value lists exactly the reports whose status is named so, in order |
| ReportsPage.StatusFilterMatchesCount | app/master/reports/page.tsx:33-35 | filtering by a status lists as many reports as the dashboard counts for it |
| ReportsPage.UnknownFilterShowsNothing | app/master/reports/page.tsx:22-35 | a hand-typed parameter that is no status name lists nothing |
| ReportsPage.View | app/admin/reports/page.tsx:29-35 | the list renders exactly for a session of the page's role, and shows the filtered reports |
| ReportsPage.Table | app/master/reports/page.tsx:79-87 | the rows are exactly the filtered reports in order, each six columns wide, or a single six-column "Tidak ada laporan yang ditemukan." row when none match; every row's actions can update, and only the master page can delete (the admin page, app/admin/reports/page.tsx:70-77, passes no delete handler) |
| ReportsPage.HandleReportUpdate | app/admin/reports/page.tsx:37-39 | the table's call reaches `updateReport`: the list is updated; when the report exists and keeps its id, one unread info notification naming its title and new status goes in front of the old ones, otherwise none; nothing else changes |
| ReportsPage.ClearingAssigneeReachesStore | app/admin/reports/page.tsx:37-39 | emptying the assignee in the dialog removes the report's assignee in the store |
| ReportsPage.StatusChangeReachesStore | app/master/reports/page.tsx:37-39 | a status picked in a row becomes that report's status |
| ReportsPage.HandleReportDelete | app/master/reports/page.tsx:41-49 | delete alerts exactly when confirmed but never removes the report |
| AdminDashboard.StatusCards | app/admin/dashboard/page.tsx:47-69 | the completed, in-progress and pending cards, in that order, each show their status's count and link to the report list filtered by that status; with the rejected reports they account for every report |
| AdminDashboard.StatusCardsAgreeWithReportList | app/admin/dashboard/page.tsx:47-69 | following a card lists exactly as many reports as the card shows |
| AdminDashboard.Render | app/admin/dashboard/page.tsx:21-83 | the dashboard renders exactly for an admin, with the admin's name, the status cards and the five newest pending reports |
| MasterDashboard.TotalUsersCountsMasters | app/master/dashboard/page.tsx:30 | the user card counts the masters that the user list hides |
| MasterDashboard.TotalUsers | app/master/dashboard/page.tsx:30 | the user card is never smaller than the user list `getAllUsers()` shows |
| MasterDashboard.RecentLabelsAgainstReportTable | app/master/dashboard/page.tsx:121-133 | the recent table agrees with the report table except that rejected shows as pending |
| MasterDashboard.RecentBadge | app/master/dashboard/page.tsx:121-127 | the recent table's badge is red exactly for pending and rejected, green exactly for completed |
| MasterDashboard.RecentLabel | app/master/dashboard/page.tsx:129-133 | the recent table's label reads `Pending` exactly for pending and rejected, `Selesai` exactly for completed |
| MasterDashboard.RecentRows | app/master/dashboard/page.tsx:114 | the first five reports in store order, whatever their status |
| MasterDashboard.AddedReportHeadsRecentRows | app/master/dashboard/page.tsx:114 | a report just added is the first recent row |
| MasterDashboard.CompletionRate | app/master/dashboard/page.tsx:156 | the rate is absent exactly for zero reports; otherwise it is the integer nearest to `100·completed/total`, rounding halves up |
| MasterDashboard.CompletionRateBounds | app/master/dashboard/page.tsx:156 | with at most as many completed as total, the rate lies in 0..100 |
| MasterDashboard.CompletionRateEnds | app/master/dashboard/page.tsx:156 | all completed reads 100; none completed reads 0 |
| MasterDashboard.Render | app/master/dashboard/page.tsx:22-165 | the dashboard renders exactly for a master, with the master's name, the user card and the three status cards, the five newest pending reports, the first five reports as recent rows, and the statistics |
| MasterDashboard.RenderedRateAtMostHundred | app/master/dashboard/page.tsx:151-156 | the completion rate a master sees is at most 100 |
| LoginPage.HandleSubmit | app/login/page.tsx:21-56 | empty fields, then short passwords, are refused with their messages and no store call; past those checks the store is what `login` leaves; the redirect happens exactly for a seeded email with the demo password, to that role's dashboard, and a refusal shows `Email atau password salah` with the store unchanged |
| LoginPage.LengthCheckOnlyChangesMessage | app/login/page.tsx:33-37 | the length check never blocks a login the store would accept |
| LoginPage.SeedAccountReachesDashboard | app/login/page.tsx:40-50 | each seeded account with the demo password reaches its role's dashboard |
| LoginPage.TogglePassword | app/login/page.tsx:121 | the eye button flips visibility and nothing else |
| UsersPage.OpenAdd | app/admin/users/page.tsx:76 | the add button only opens the dialog |
| UsersPage.EditFields | app/admin/users/page.tsx:15-20 | typing changes name, email and address and keeps the role |
| UsersPage.SelectRole | app/master/users/page.tsx:198-205 | the master's role select yields admin or staff, never master |
| UsersPage.HandleEdit | app/admin/users/page.tsx:48-57 | the dialog opens on a copy of the user's fields, with a missing address as empty |
| UsersPage.FormPatch | app/admin/users/page.tsx:37-38 | an edit overwrites name, email, role and address and keeps id and avatar |
| UsersPage.FormDraft | app/admin/users/page.tsx:39-40 | an added account has the form's fields and no avatar |
| UsersPage.HandleSubmit | app/admin/users/page.tsx:34-46 | updates the edited account or adds a new one, then closes and clears the dialog |
| UsersPage.Cancel | app/admin/users/page.tsx:203-207 | cancel closes and clears the dialog |
| UsersPage.HandleDelete | app/admin/users/page.tsx:59-63 | deletes exactly when confirmed |
| UsersPage.SubmitAddsNoRole | app/admin/users/page.tsx:34-46 | a submit whose form role is not R creates no account with role R |
| UsersPage.AdminFormStaysStaff | app/admin/users/page.tsx:15-57 | on the admin page the form's role is always staff |
| UsersPage.MasterFormNeverMaster | app/master/users/page.tsx:48-57 | on the master page the form's role is never master |
| UsersPage.AddedStaffIsListed | app/admin/users/page.tsx:28-46 | an account the admin adds is listed to the admin right away |
| UsersPage.UnchangedEditKeepsUser | app/admin/users/page.tsx:34-57 | saving an opened account unchanged keeps it, apart from a missing address becoming empty |
| CreateReport.HandleSubmit | app/staff/create-report/page.tsx:30-55 | a missing title or description alerts and changes nothing; otherwise a pending report by the staff member heads the list, and the page alerts and goes to the dashboard |
| CreateReport.FiledReportHeadsPendingList | app/staff/create-report/page.tsx:41-48 | a filed report heads the pending list and raises one unread notification |
| StaffDashboard.UserReports | app/staff/dashboard/page.tsx:27 | exactly the seed reports the user created, in seed order |
| StaffDashboard.CompletedCount | app/staff/dashboard/page.tsx:28 | the completed count is at most the user's report count |
| StaffDashboard.Render | app/staff/dashboard/page.tsx:23-59 | the page renders exactly for a staff member, with their name and completed count |
| StaffDashboard.CardIgnoresStore | app/staff/dashboard/page.tsx:27-28 | filing and completing reports in the store leaves the card unchanged |
| StaffDashboard.SeedStaffCount | app/staff/dashboard/page.tsx:27-28 | the seeded staff account's card reads two |
| StaffDashboard.OtherUsersCountZero | app/staff/dashboard/page.tsx:27-28 | every other account's card reads zero |

## Left out

- Browser form validation: the forms carry HTML constraints (`required` on the login, profile, user and report inputs, `type="email"`, `minLength={6}` on the login and profile password fields) that stop a submit before its handler runs. The handlers are modelled on every input, including those the browser would refuse to submit, so `LoginPage.HandleSubmit`'s empty-field and short-password branches are reachable in the model but not behind those constraints.
- Persistence: the `persist` middleware (store/userStore.ts:181-183) saves the store to local storage. The model has one in-memory state.
- The login delay: the simulated one-second delay in `login` is dropped, along with its `isLoading` window and the unreachable `catch` branch of the login page.
- Fresh ids: `Date.now().toString()` ids are parameters, so two actions in the same millisecond can reuse an id. The model does not assume otherwise, and no lemma requires fresh ids except where it says so. `addReport` reads `new Date()` twice, once for the report's `createdAt` and once for the notification's; the model uses one `now` for both, as if both reads fell in the same millisecond.
- Date formatting: `toLocaleDateString` and ISO strings are not modelled. Times are integer milliseconds.
- Unicode strings:
  - `toLowerCase` is modelled for ASCII letters only.
  - `length` and `substring` count characters, not UTF-16 units.
- MasterDashboard.CompletionRate: computed on exact rationals. The source divides and multiplies in floating point before `Math.round`, so at a true half the displayed percentage can be one point lower than the model's: 23 of 40 evaluates just below 57.5 and shows 57, where the model gives 58. `NaN%` for an empty list appears as an absent rate.
- ProfileModal.HandleFileChange: the asynchronous `FileReader` is collapsed, so the read completes at once. A file is its data URL.
- Effects: routing, `alert` and `confirm` are returned values and boolean parameters. The redirects the page guards perform are not modelled; the pages render nothing instead.
- Unreachable `default` branches: the status switches' `default` labels cannot be reached, because the status type has four values.
- Static text: the master dashboard's response time is the fixed text "2.5 jam" in the source, and the model copies it as a constant.
- Staff dashboard: its commented-out report table is not modelled.
- Other files: presentational components outside this core (cards, dialogs for staff detail and processing, the report detail pages, chat and settings pages) are not modelled.
- ReportQueries.RecentPending: the sort's stability among equal `createdAt` values is not stated. The model inserts stably, but the contract does not promise it.

=== FILE: admin_dashboard.dfy ===
/** The admin dashboard: three status cards that count the store's
    reports and link to the filtered report list, and the incoming table
    of the five newest pending reports. The card helpers are shared with
    the master dashboard, which repeats the same three cards. */
module AdminDashboard {
  import opened Optional
  import opened Types
  import opened Store
  import opened ReportQueries
  import opened ReportsPage

  /** Where a card click navigates: a path and the `status` search
      parameter it carries, if any. */
  datatype Link = Link(path: string, status: Option<string>)

  datatype Card = Card(title: string, value: nat, link: Link)

  /** The three status cards, completed, in progress and pending, in page
      order; each shows its status's count and links to the report list
      filtered by that status. */
  function StatusCards(reportsPath: string, rs: seq<Report>): (r: seq<Card>)
    ensures |r| == 3
    ensures r[0].value + r[1].value + r[2].value + CountStatus(rs, Rejected) == |rs|
    ensures forall i :: 0 <= i < 3 ==> r[i].link.path == reportsPath && r[i].link.status.Some?
    ensures r[0].value == CountStatus(rs, Completed) && r[0].link.status == Some(StatusName(Completed))
    ensures r[1].value == CountStatus(rs, InProgress) && r[1].link.status == Some(StatusName(InProgress))
    ensures r[2].value == CountStatus(rs, Pending) && r[2].link.status == Some(StatusName(Pending))
  {
    CountsPartition(rs);
    [Card("Laporan Selesai", CountStatus(rs, Completed), Link(reportsPath, Some(StatusName(Completed)))),
     Card("Laporan Sedang Dikerjakan", CountStatus(rs, InProgress), Link(reportsPath, Some(StatusName(InProgress)))),
     Card("Laporan Belum Dikerjakan", CountStatus(rs, Pending), Link(reportsPath, Some(StatusName(Pending))))]
  }

  /** Following a status card lands on a report list, whatever filter it
      held before, that shows exactly as many reports as the card counted. */
  lemma StatusCardsAgreeWithReportList(reportsPath: string, rs: seq<Report>, i: nat, before: string)
    requires i < 3
    ensures var c := StatusCards(reportsPath, rs)[i];
            |FilteredReports(rs, ApplyStatusParam(before, c.link.status))| == c.value
  {
    var st := if i == 0 then Completed else if i == 1 then InProgress else Pending;
    assert StatusCards(reportsPath, rs)[i].link.status == Some(StatusName(st));
    StatusFilterMatchesCount(rs, st);
  }

  /** What the admin dashboard renders. */
  datatype AdminView = AdminView(welcomeName: string, cards: seq<Card>, incoming: seq<Report>)

  /** The page: nothing unless an admin is signed in. */
  function Render(s: State): (r: Option<AdminView>)
    ensures r.Some? <==> SessionHasRole(s, Admin)
    ensures r.Some? ==> r.value.welcomeName == s.user.value.name
                        && r.value.cards == StatusCards("/admin/reports", s.allReports)
                        && r.value.incoming == RecentPending(s.allReports)
  {
    if SessionHasRole(s, Admin) then
      var rs := GetAllReports(s);
      Some(AdminView(s.user.value.name, StatusCards("/admin/reports", rs), RecentPending(rs)))
    else None
  }

  /** The incoming table's "see all" button goes to the unfiltered list. */
  const SeeAllLink := Link("/admin/reports", None)
}

=== FILE: chat_window.dfy ===
/** The chat window shared by every role: it lists the store's single
    global conversation and sends the trimmed text of the input box as the
    signed-in user. */
module ChatWindow {
  import opened Optional
  import opened Types
  import opened Seqs
  import opened Text
  import opened Store

  /** `handleSendMessage()`: sends only when the trimmed text is non-empty
      and someone is signed in, then clears the box; otherwise nothing
      changes. Returns the store and the input box afterwards. */
  function HandleSendMessage(s: State, input: string, id: string, now: int): (r: (State, string))
    ensures Trim(input) != "" && s.user.Some? ==>
              && r.0 == AddChatMessage(s, ChatDraft(s.user.value.id, s.user.value.name, Trim(input)), id, now)
              && r.1 == ""
    ensures !(Trim(input) != "" && s.user.Some?) ==> r == (s, input)
  {
    var text := Trim(input);
    if text != "" && s.user.Some? then
      var u := s.user.value;
      (AddChatMessage(s, ChatDraft(u.id, u.name, text), id, now), "")
    else (s, input)
  }

  /** A message that was sent carries no surrounding white space and is
      never blank, and it is the last one of the conversation. */
  lemma SentMessageIsTrimmed(s: State, input: string, id: string, now: int)
    requires Trim(input) != "" && s.user.Some?
    ensures var ms := HandleSendMessage(s, input, id, now).0.chatMessages;
            && |ms| == |s.chatMessages| + 1
            && var m := ms[|ms| - 1];
               m.senderId == s.user.value.id && m.timestamp == now
               && m.message == Trim(input) && Trim(m.message) == m.message
               && !IsWhite(m.message[0]) && !IsWhite(m.message[|m.message| - 1])
  {
    TrimIdempotent(input);
  }

  /** The send button is disabled exactly when pressing it would do nothing. */
  function SendDisabled(s: State, input: string): (r: bool)
    ensures r <==> HandleSendMessage(s, input, "", 0) == (s, input)
  {
    var ms := s.chatMessages;
    assert !(Trim(input) != "" && s.user.Some?) ==> HandleSendMessage(s, input, "", 0) == (s, input);
    assert Trim(input) != "" && s.user.Some? ==>
             |HandleSendMessage(s, input, "", 0).0.chatMessages| == |ms| + 1;
    s.user.None? || Trim(input) == ""
  }

  /** The first directory entry with the sender's id, if any. */
  function Sender(users: seq<User>, senderId: string): (r: Option<User>)
    ensures r.Some? ==> r.value in users && r.value.id == senderId
    ensures r.None? <==> forall i :: 0 <= i < |users| ==> users[i].id != senderId
    ensures r.Some? ==> exists i :: 0 <= i < |users| && users[i] == r.value
                                    && forall j :: 0 <= j < i ==> users[j].id != senderId
  {
    Find(users, (u: User) => u.id == senderId)
  }

  /** `getUserAvatar(senderId)`: the sender's avatar, or the placeholder
      for an unknown sender or an empty avatar. */
  function UserAvatar(users: seq<User>, senderId: string): (r: string)
    ensures r != ""
    ensures Sender(users, senderId).None? ==> r == "/placeholder.svg"
    ensures Sender(users, senderId).Some? ==> r == OrElse(Sender(users, senderId).value.avatar, "/placeholder.svg")
  {
    match Sender(users, senderId)
    case Some(u) => OrElse(u.avatar, "/placeholder.svg")
    case None => "/placeholder.svg"
  }

  /** `getSenderRole(senderId)`: the sender's role name, or `unknown` for a
      sender no longer in the directory. */
  function SenderRole(users: seq<User>, senderId: string): (r: string)
    ensures Sender(users, senderId).Some? ==> r == RoleName(Sender(users, senderId).value.role)
    ensures Sender(users, senderId).None? ==> r == "unknown"
  {
    match Sender(users, senderId)
    case Some(u) => RoleName(u.role)
    case None => "unknown"
  }

  /** A message is drawn on the right, as the reader's own, exactly when its
      sender id is the signed-in user's. */
  function IsOwn(viewer: Option<User>, m: ChatMessage): (r: bool)
    ensures viewer.None? ==> !r
    ensures viewer.Some? ==> (r <==> m.senderId == viewer.value.id)
  {
    viewer.Some? && m.senderId == viewer.value.id
  }

  /** The heading above a message: `Anda` for the reader's own messages,
      otherwise the stored sender name with the sender's role. */
  function SenderHeading(viewer: Option<User>, users: seq<User>, m: ChatMessage): (r: string)
    ensures IsOwn(viewer, m) ==> r == "Anda"
    ensures !IsOwn(viewer, m) ==> r == m.senderName + " (" + SenderRole(users, m.senderId) + ")"
    ensures r == "Anda" <==> IsOwn(viewer, m)
  {
    var other := m.senderName + " (" + SenderRole(users, m.senderId) + ")";
    assert other[|other| - 1] == ')';
    if IsOwn(viewer, m) then "Anda" else m.senderName + " (" + SenderRole(users, m.senderId) + ")"
  }

  /** A message the reader sent is shown as theirs to them, and as someone
      else's to any reader with another id. */
  lemma OwnMessagesFollowTheSender(s: State, input: string, id: string, now: int, other: User)
    requires Trim(input) != "" && s.user.Some? && other.id != s.user.value.id
    ensures var ms := HandleSendMessage(s, input, id, now).0.chatMessages;
            && SenderHeading(s.user, s.allUsers, ms[|ms| - 1]) == "Anda"
            && !IsOwn(Some(other), ms[|ms| - 1])
  {
  }

  /** The placeholder shown while the conversation is empty. */
  function EmptyText(s: State): (r: Option<string>)
    ensures r.Some? <==> GetChatMessages(s) == []
  {
    if |GetChatMessages(s)| == 0 then Some("Mulai percakapan baru...") else None
  }
}

=== FILE: create_report.dfy ===
/** The staff page for filing a report: a title and a description, both
    required, sent to the store's `addReport` as a pending report created
    by the signed-in staff member. */
module CreateReport {
  import opened Optional
  import opened Types
  import opened Store
  import opened ReportsPage

  const MissingFieldsAlert := "Judul dan deskripsi laporan harus diisi."
  const CreatedAlert := "Laporan berhasil dibuat!"

  datatype ReportForm = ReportForm(title: string, description: string)

  /** The outcome of a submit: the store, the alert shown, where the router
      went, and the submitting flag afterwards. */
  datatype Submitted = Submitted(state: State, alert: string, redirect: Option<string>, isSubmitting: bool)

  /** The form is only rendered, and so can only be submitted, while a
      staff member is signed in. */
  function HandleSubmit(s: State, f: ReportForm, id: string, noteId: string, now: int): (r: Submitted)
    requires SessionHasRole(s, Staff)
    ensures !r.isSubmitting
    ensures (f.title == "" || f.description == "") ==>
              r == Submitted(s, MissingFieldsAlert, None, false)
    ensures f.title != "" && f.description != "" ==>
              && r.alert == CreatedAlert && r.redirect == Some("/staff/dashboard")
              && |r.state.allReports| == |s.allReports| + 1
              && r.state.allReports[1..] == s.allReports
              && var x := r.state.allReports[0];
                 x == Report(id, f.title, f.description, Pending, s.user.value.id, None, now, None)
  {
    if f.title == "" || f.description == "" then Submitted(s, MissingFieldsAlert, None, false)
    else
      var draft := ReportDraft(f.title, f.description, Pending, s.user.value.id, None, None);
      Submitted(AddReport(s, draft, id, noteId, now), CreatedAlert, Some("/staff/dashboard"), false)
  }

  /** A filed report heads the pending list of the report pages and raises
      the unread notifications by one. */
  lemma FiledReportHeadsPendingList(s: State, f: ReportForm, id: string, noteId: string, now: int)
    requires SessionHasRole(s, Staff) && f.title != "" && f.description != ""
    ensures var s1 := HandleSubmit(s, f, id, noteId, now).state;
            var listed := FilteredReports(s1.allReports, StatusName(Pending));
            |listed| >= 1 && listed[0].id == id && listed[0].createdBy == s.user.value.id
            && |s1.notifications| == |s.notifications| + 1 && !s1.notifications[0].read
  {
    var s1 := HandleSubmit(s, f, id, noteId, now).state;
    assert s1.allReports == [s1.allReports[0]] + s.allReports;
  }
}

=== FILE: faqs.dfy ===
/** The FAQ panel on the staff dashboard: a case-insensitive search over
    questions and answers, and a set of expanded entries toggled one at a
    time. */
module Faqs {
  import opened Types
  import opened Seqs
  import opened Text

  /** The fixed FAQ list, `dummyFAQs`. */
  const DummyFaqs: seq<FaqItem> := [
    FaqItem("1", "Bagaimana cara melihat laporan penjualan harian/bulanan?",
            "Anda dapat melihat laporan penjualan harian atau bulanan di bagian \"Laporan\" pada dashboard Anda. Pilih filter tanggal yang sesuai untuk melihat data yang diinginkan."),
    FaqItem("2", "Apakah saya bisa unduh laporan dalam format Excel atau PDF?",
            "Ya, semua laporan dapat diunduh dalam format Excel atau PDF. Cukup klik ikon unduh yang tersedia di setiap halaman laporan."),
    FaqItem("3", "Laporan saya tidak muncul/terupdate, apa yang harus saya lakukan?",
            "Pastikan koneksi internet Anda stabil. Jika masalah berlanjut, coba refresh halaman atau hubungi tim support kami melalui fitur chat."),
    FaqItem("4", "Apakah sistem ini menampilkan stok real-time?",
            "Ya, sistem kami dirancang untuk menampilkan data stok secara real-time, memastikan Anda selalu memiliki informasi terkini."),
    FaqItem("5", "Berapa lama data akan tersimpan di sistem? Apakah ada batas waktu arsip?",
            "Data akan tersimpan di sistem selama 5 tahun. Setelah itu, data akan diarsipkan secara otomatis, namun masih dapat diakses melalui permintaan khusus."),
    FaqItem("6", "Bagaimana cara mengubah password saya?",
            "Anda dapat mengubah password melalui menu \"Profil\" di pojok kanan atas dashboard. Pilih \"Edit Profil\" dan cari bagian \"Ubah Password\"."),
    FaqItem("7", "Apakah ada panduan penggunaan sistem?",
            "Ya, panduan penggunaan lengkap tersedia di bagian \"Bantuan\" atau \"Dokumentasi\" di dashboard Anda.")
  ]

  /** The search predicate: `includes` of the lower-cased term in the
      lower-cased question or answer, which holds exactly when the term
      occurs somewhere in one of them. */
  function Matches(faq: FaqItem, term: string): (r: bool)
    ensures r <==> (exists i :: OccursAt(Lower(faq.question), Lower(term), i))
                   || (exists i :: OccursAt(Lower(faq.answer), Lower(term), i))
  {
    Contains(Lower(faq.question), Lower(term)) || Contains(Lower(faq.answer), Lower(term))
  }

  /** `filteredFAQs`: the entries matching the term, in list order. */
  function Search(faqs: seq<FaqItem>, term: string): (r: seq<FaqItem>)
    ensures IsSubsequence(r, faqs)
    ensures forall i :: 0 <= i < |r| ==> Matches(r[i], term)
    ensures forall i :: 0 <= i < |faqs| && Matches(faqs[i], term) ==> faqs[i] in r
  {
    var p := (f: FaqItem) => Matches(f, term);
    FilterIsSubsequence(faqs, p);
    Filter(faqs, p)
  }

  /** An empty search term keeps every entry. */
  lemma EmptyTermKeepsAll(faqs: seq<FaqItem>)
    ensures Search(faqs, "") == faqs
  {
    forall i | 0 <= i < |faqs|
      ensures Matches(faqs[i], "")
    {
      ContainsEmpty(Lower(faqs[i].question));
    }
    FilterAll(faqs, (f: FaqItem) => Matches(f, ""));
  }

  /** The search ignores the case of ASCII letters in the term. */
  lemma SearchIgnoresTermCase(faqs: seq<FaqItem>, term: string)
    ensures Search(faqs, Lower(term)) == Search(faqs, term)
  {
    LowerIdempotent(term);
    FilterCongruent(faqs, (f: FaqItem) => Matches(f, Lower(term)), (f: FaqItem) => Matches(f, term));
  }

  /** The "not found" message replaces the list exactly when nothing matches. */
  function ShowsNotFound(faqs: seq<FaqItem>, term: string): (r: bool)
    ensures r <==> forall i :: 0 <= i < |faqs| ==> !Matches(faqs[i], term)
  {
    |Search(faqs, term)| == 0
  }

  /** The clear button is rendered only for a non-empty term. */
  function ShowsClearButton(term: string): bool {
    term != ""
  }

  /** Pressing the clear button: the term becomes empty, which hides the
      button and brings back every entry. */
  function ClearSearch(term: string): (r: string)
    ensures !ShowsClearButton(r)
    ensures Search(DummyFaqs, r) == DummyFaqs
  {
    EmptyTermKeepsAll(DummyFaqs);
    ""
  }

  /** `toggleItem(id)`: opens a closed entry or closes an open one. */
  function Toggle(open: set<string>, id: string): (r: set<string>)
    ensures id in r <==> id !in open
    ensures forall x :: x != id ==> (x in r <==> x in open)
  {
    if id in open then open - {id} else open + {id}
  }

  /** Toggling the same entry twice restores the original set. */
  lemma ToggleTwice(open: set<string>, id: string)
    ensures Toggle(Toggle(open, id), id) == open
  {
  }
}

=== FILE: incoming_table.dfy ===
/** The "incoming reports" table on the admin and master dashboards: a
    fixed six-column layout with a shortened queue id, the creator's name,
    the status label, and two buttons that open the staff-detail and
    process-report dialogs. */
module IncomingReportsTable {
  import opened Optional
  import opened Types
  import opened Seqs
  import opened Text
  import RT = ReportTable

  const EmptyTableText := "Tidak ada laporan masuk terbaru."

  /** `getStatusBadge(status)`, the same switch as the report table's. */
  function StatusBadge(st: Status): (r: string)
    ensures r == RT.StatusBadge(st)
    ensures r == RT.GrayBadge <==> st == Rejected
  {
    match st
    case Completed => RT.GreenBadge
    case InProgress => RT.BlueBadge
    case Pending => RT.RedBadge
    case Rejected => RT.GrayBadge
  }

  /** `getStatusText(status)`, the same four labels as the report table's. */
  function StatusText(st: Status): (r: string)
    ensures r == RT.StatusText(st)
    ensures r != RT.UnknownStatusText
  {
    match st
    case Completed => "Selesai"
    case InProgress => "Dikerjakan"
    case Pending => "Pending"
    case Rejected => "Ditolak"
  }

  /** `getUserName(userId)`: the first matching user's name, or the
      not-found text; unlike the report table there is no `N/A` case, so an
      empty id is looked up like any other. */
  function UserName(users: seq<User>, id: string): (r: string)
    ensures !RT.HasUser(users, id) ==> r == RT.MissingUserText
    ensures RT.HasUser(users, id) ==>
              exists i :: 0 <= i < |users| && users[i].id == id && r == users[i].name
                          && forall j :: 0 <= j < i ==> users[j].id != id
  {
    match Find(users, (u: User) => u.id == id)
    case Some(u) => u.name
    case None => RT.MissingUserText
  }

  /** For a non-empty id both tables name the creator alike; for the empty
      id the report table says `N/A` while this table looks it up. */
  lemma UserNameAgainstReportTable(users: seq<User>, id: string)
    ensures id != "" ==> UserName(users, id) == RT.UserName(users, Some(id))
    ensures id == "" && !RT.HasUser(users, "") ==>
              UserName(users, id) == RT.MissingUserText && RT.UserName(users, Some(id)) == RT.NoUserText
  {
  }

  /** The queue-id cell: `#` and the first six characters of the report id. */
  function QueueId(id: string): (r: string)
    ensures |r| == 1 + (if |id| < 6 then |id| else 6)
    ensures r[0] == '#' && StartsWith(id, r[1..])
  {
    "#" + Prefix(id, 6)
  }

  const Headers: seq<string> :=
    ["ID Antrian", "Nama Lengkap Staff", "Jenis Masalah", "Permasalahan", "Status", "Aksi"]

  datatype Cell =
    | QueueCell(queueId: string)
    | NameCell(name: string)
    | TitleCell(title: string)
    | DescriptionCell(description: string)
    | StatusCell(badge: string, text: string)
    | ActionsCell(detailStaffId: string, processReportId: string)

  datatype Row = EmptyRow(colSpan: nat, text: string) | DataRow(report: Report, cells: seq<Cell>)

  function Width(r: Row): nat {
    match r
    case EmptyRow(n, _) => n
    case DataRow(_, cells) => |cells|
  }

  /** The cells of one report's row; the detail button targets the
      report's creator and the process button the report itself. */
  function RowCells(r: Report, users: seq<User>): seq<Cell> {
    [QueueCell(QueueId(r.id)), NameCell(UserName(users, r.createdBy)), TitleCell(r.title),
     DescriptionCell(r.description), StatusCell(StatusBadge(r.status), StatusText(r.status)),
     ActionsCell(r.createdBy, r.id)]
  }

  /** The table body: one row per report, or a single row spanning all six
      columns when there is none. */
  function Rows(reports: seq<Report>, users: seq<User>): (r: seq<Row>)
    ensures |reports| == 0 ==> r == [EmptyRow(6, EmptyTableText)]
    ensures |reports| > 0 ==> |r| == |reports|
                              && forall i :: 0 <= i < |r| ==> r[i].DataRow? && r[i].report == reports[i]
    ensures forall i :: 0 <= i < |r| ==> Width(r[i]) == |Headers|
  {
    if |reports| == 0 then [EmptyRow(6, EmptyTableText)]
    else seq(|reports|, i requires 0 <= i < |reports| => DataRow(reports[i], RowCells(reports[i], users)))
  }

  // ---------------------------------------------------------------- dialogs

  /** Which dialog is open and for what. */
  datatype Dialogs = Dialogs(showStaffDetail: bool, staffId: string, showProcess: bool, reportId: string)

  const NoDialogs := Dialogs(false, "", false, "")

  /** `handleDetailClick(staffId)`. */
  function HandleDetailClick(d: Dialogs, staffId: string): (r: Dialogs)
    ensures r.showStaffDetail && r.staffId == staffId
    ensures r.showProcess == d.showProcess && r.reportId == d.reportId
  {
    d.(showStaffDetail := true, staffId := staffId)
  }

  /** `handleProcessClick(reportId)`. */
  function HandleProcessClick(d: Dialogs, reportId: string): (r: Dialogs)
    ensures r.showProcess && r.reportId == reportId
    ensures r.showStaffDetail == d.showStaffDetail && r.staffId == d.staffId
  {
    d.(showProcess := true, reportId := reportId)
  }

  /** Pressing a row's buttons opens the staff detail for the report's
      creator and the process dialog for the report's id. */
  lemma RowButtonsTargets(reports: seq<Report>, users: seq<User>, i: nat, d: Dialogs)
    requires i < |reports|
    ensures var row := Rows(reports, users)[i];
            var actions := row.cells[5];
            && actions.ActionsCell?
            && HandleDetailClick(d, actions.detailStaffId).staffId == reports[i].createdBy
            && HandleProcessClick(d, actions.processReportId).reportId == reports[i].id
  {
  }
}

=== FILE: login_page.dfy ===
/** The login form: two client-side checks, then the store's `login`, then
    a redirect to the signed-in user's dashboard. */
module LoginPage {
  import opened Optional
  import opened Types
  import opened Store

  const MissingFieldsError := "Email dan password harus diisi"
  const ShortPasswordError := "Password minimal 6 karakter"
  const WrongCredentialsError := "Email atau password salah"

  /** The shortest password the form lets through to the store. */
  const MinPasswordLength := 6

  /** The form's fields and flags. */
  datatype Form = Form(email: string, password: string, showPassword: bool, isLoading: bool, error: string)

  const EmptyForm := Form("", "", false, false, "")

  /** The result of one submit: the store afterwards, the form afterwards,
      and where the router was sent, if anywhere. */
  datatype Submit = Submit(state: State, form: Form, redirect: Option<string>)

  /** `handleSubmit()`: empty fields and short passwords are rejected before
      the store is asked; a successful login redirects to the role's
      dashboard; a refused one shows the credentials error. The loading
      flag is always off again when the handler finishes. */
  function HandleSubmit(s: State, f: Form): (r: Submit)
    ensures !r.form.isLoading
    ensures r.form.email == f.email && r.form.password == f.password
            && r.form.showPassword == f.showPassword
    ensures (f.email == "" || f.password == "") ==>
              r.state == s && r.redirect.None? && r.form.error == MissingFieldsError
    ensures f.email != "" && f.password != "" && |f.password| < MinPasswordLength ==>
              r.state == s && r.redirect.None? && r.form.error == ShortPasswordError
    ensures r.redirect.Some? <==> f.email != "" && IsSeedEmail(f.email) && f.password == DemoPassword
    ensures r.redirect.Some? ==> r.state.user.Some? && r.state.user.value.email == f.email
                                 && r.redirect.value == "/" + RoleName(r.state.user.value.role) + "/dashboard"
                                 && r.form.error == ""
    ensures f.email != "" && |f.password| >= MinPasswordLength ==>
              && r.state == Login(s, f.email, f.password).state
              && (r.redirect.None? ==> r.form.error == WrongCredentialsError && r.state == s)
  {
    var cleared := f.(error := "", isLoading := true);
    if f.email == "" || f.password == "" then
      Submit(s, cleared.(error := MissingFieldsError, isLoading := false), None)
    else if |f.password| < MinPasswordLength then
      Submit(s, cleared.(error := ShortPasswordError, isLoading := false), None)
    else
      var res := Login(s, f.email, f.password);
      if res.success then
        var u := res.state.user.value;
        Submit(res.state, cleared.(isLoading := false), Some("/" + RoleName(u.role) + "/dashboard"))
      else
        Submit(res.state, cleared.(error := WrongCredentialsError, isLoading := false), None)
  }

  /** The length check never blocks a login the store would accept: the
      form fails where the store would anyway, only with its own message. */
  lemma LengthCheckOnlyChangesMessage(s: State, f: Form)
    requires f.email != "" && f.password != "" && |f.password| < MinPasswordLength
    ensures !Login(s, f.email, f.password).success
    ensures HandleSubmit(s, f).state == Login(s, f.email, f.password).state
  {
  }

  /** Signing in with a seeded account and the demo password reaches that
      account's own dashboard. */
  lemma SeedAccountReachesDashboard(s: State, i: nat)
    requires i < |SeedUsers|
    ensures HandleSubmit(s, EmptyForm.(email := SeedUsers[i].email, password := DemoPassword)).redirect
            == Some("/" + RoleName(SeedUsers[i].role) + "/dashboard")
  {
    assert |DemoPassword| == 11;
    assert IsSeedEmail(SeedUsers[i].email);
    var u := Login(s, SeedUsers[i].email, DemoPassword).state.user.value;
    assert forall j, k :: 0 <= j < k < |SeedUsers| ==> SeedUsers[j].email != SeedUsers[k].email;
    assert u == SeedUsers[i];
  }

  /** The eye button shows or hides the password. */
  function TogglePassword(f: Form): (r: Form)
    ensures r.showPassword != f.showPassword
    ensures r.(showPassword := f.showPassword) == f
  {
    f.(showPassword := !f.showPassword)
  }
}

=== FILE: master_dashboard.dfy ===
/** The master dashboard: a user-count card and the three status cards,
    the incoming table of the five newest pending reports, a "recent
    reports" table of the first five reports in store order, and a panel
    of system statistics. */
module MasterDashboard {
  import opened Optional
  import opened Types
  import opened Seqs
  import opened Store
  import opened ReportQueries
  import opened AdminDashboard
  import RT = ReportTable

  /** `totalUsers`: the size of the store's raw directory, masters
      included, so never smaller than the list `getAllUsers()` shows. */
  function TotalUsers(s: State): (r: nat)
    ensures |GetAllUsers(s)| <= r
  {
    |s.allUsers|
  }

  /** For a master the user card counts more than the user list shows: the
      list hides the masters, the card does not. */
  lemma TotalUsersCountsMasters(s: State)
    requires SessionHasRole(s, Master)
    ensures TotalUsers(s) == |GetAllUsers(s)| + Count(s.allUsers, (u: User) => u.role == Master)
  {
    var notMaster := (u: User) => u.role != Master;
    var master := (u: User) => u.role == Master;
    FilterLength(s.allUsers, notMaster);
    CountSplit(s.allUsers, notMaster, master, (u: User) => true);
    CountAll(s.allUsers, (u: User) => true);
  }

  /** The badge of the "recent reports" table: green for completed, blue
      for in progress, red for anything else. */
  function RecentBadge(st: Status): (r: string)
    ensures r == RT.RedBadge <==> st == Pending || st == Rejected
    ensures r == RT.GreenBadge <==> st == Completed
  {
    match st
    case Completed => RT.GreenBadge
    case InProgress => RT.BlueBadge
    case _ => RT.RedBadge
  }

  /** The label of the "recent reports" table: its own two-way conditional
      with `Pending` as the fallback. */
  function RecentLabel(st: Status): (r: string)
    ensures r == "Pending" <==> st == Pending || st == Rejected
    ensures r == "Selesai" <==> st == Completed
  {
    match st
    case Completed => "Selesai"
    case InProgress => "Dikerjakan"
    case _ => "Pending"
  }

  /** The recent-reports table agrees with the report table on every status
      but one: a rejected report is shown as a red `Pending`. */
  lemma RecentLabelsAgainstReportTable(st: Status)
    ensures RecentLabel(st) == RT.StatusText(st) <==> st != Rejected
    ensures RecentBadge(st) == RT.StatusBadge(st) <==> st != Rejected
    ensures RecentLabel(Rejected) == RecentLabel(Pending)
    ensures RecentBadge(Rejected) == RecentBadge(Pending)
  {
  }

  datatype RecentRow = RecentRow(id: string, title: string, badge: string, text: string)

  /** `allReports.slice(0, 5)`: the first five reports in store order, which
      is newest first only as far as the store's own order is. */
  function RecentRows(rs: seq<Report>): (r: seq<RecentRow>)
    ensures |r| == if |rs| < 5 then |rs| else 5
    ensures forall i :: 0 <= i < |r| ==>
              r[i].id == rs[i].id && r[i].title == rs[i].title
              && r[i].text == RecentLabel(rs[i].status) && r[i].badge == RecentBadge(rs[i].status)
  {
    var n := if |rs| < 5 then |rs| else 5;
    seq(n, i requires 0 <= i < n => RecentRow(rs[i].id, rs[i].title, RecentBadge(rs[i].status),
                                                RecentLabel(rs[i].status)))
  }

  /** A report added through the store is the first row of the recent table. */
  lemma AddedReportHeadsRecentRows(s: State, data: ReportDraft, id: string, noteId: string, now: int)
    ensures var rows := RecentRows(AddReport(s, data, id, noteId, now).allReports);
            |rows| >= 1 && rows[0].id == id && rows[0].title == data.title && rows[0].text == "Pending"
  {
  }

  /** Floor division brackets its dividend. */
  lemma DivBracket(n: nat, d: nat)
    requires d > 0
    ensures d * (n / d) <= n < d * (n / d) + d
  {
    assert n == d * (n / d) + n % d;
  }

  /** A positive factor can be cancelled from a strict inequality. */
  lemma MulCancel(d: nat, a: int, b: int)
    requires d > 0 && d * a < d * b
    ensures a < b
  {
    assert d * (b - a) == d * b - d * a;
  }

  /** At most one quotient brackets a dividend. */
  lemma BracketUnique(n: int, d: nat, a: int, b: int)
    requires d > 0
    requires d * a <= n < d * a + d
    requires d * b <= n < d * b + d
    ensures a == b
  {
    assert d * a + d == d * (a + 1);
    assert d * b + d == d * (b + 1);
    MulCancel(d, a, b + 1);
    MulCancel(d, b, a + 1);
  }

  /** `Math.round((completed / total) * 100)` on exact rationals: the
      percentage rounded half up, i.e. the integer `q` with
      `q - 1/2 <= 100 * completed / total < q + 1/2`, or `None` where the page
      divides zero by zero and shows `NaN%`. */
  function CompletionRate(completed: nat, total: nat): (r: Option<int>)
    ensures r.None? <==> total == 0
    ensures r.Some? ==> 2 * total * r.value <= 200 * completed + total < 2 * total * r.value + 2 * total
  {
    if total == 0 then None
    else
      var n := 200 * completed + total;
      var d := 2 * total;
      DivBracket(n, d);
      Some(n / d)
  }

  /** With no more completed reports than reports the rate is a percentage. */
  lemma CompletionRateBounds(completed: nat, total: nat)
    requires 0 < total && completed <= total
    ensures 0 <= CompletionRate(completed, total).value <= 100
  {
    var d := 2 * total;
    var q := CompletionRate(completed, total).value;
    assert d * q < d * 101;
    MulCancel(d, q, 101);
    assert d * 0 < d * q + d;
    assert d * q + d == d * (q + 1);
    MulCancel(d, 0, q + 1);
  }

  /** All reports completed reads 100%, none completed reads 0%. */
  lemma CompletionRateEnds(total: nat)
    requires total > 0
    ensures CompletionRate(total, total) == Some(100)
    ensures CompletionRate(0, total) == Some(0)
  {
    var d := 2 * total;
    BracketUnique(201 * total, d, CompletionRate(total, total).value, 100);
    BracketUnique(total, d, CompletionRate(0, total).value, 0);
  }

  /** The system-statistics panel. */
  datatype Stats = Stats(totalReports: nat, completionRate: Option<int>, responseTime: string, activeUsers: nat)

  /** What the master dashboard renders. */
  datatype MasterView = MasterView(welcomeName: string, cards: seq<Card>, incoming: seq<Report>,
                       recent: seq<RecentRow>, stats: Stats)

  /** The page: nothing unless a master is signed in. */
  function Render(s: State): (r: Option<MasterView>)
    ensures r.Some? <==> SessionHasRole(s, Master)
    ensures r.Some? ==> && r.value.welcomeName == s.user.value.name
                        && |r.value.cards| == 4
                        && r.value.cards[0].value == r.value.stats.activeUsers == |s.allUsers|
                        && r.value.cards[1..] == StatusCards("/master/reports", s.allReports)
                        && r.value.incoming == RecentPending(s.allReports)
                        && r.value.recent == RecentRows(s.allReports)
                        && r.value.stats.totalReports == |s.allReports|
                        && r.value.stats.completionRate
                           == CompletionRate(CountStatus(s.allReports, Completed), |s.allReports|)
  {
    if SessionHasRole(s, Master) then
      var rs := GetAllReports(s);
      var total := TotalUsers(s);
      var cards := [Card("Total Users", total, Link("/master/users", None))]
                   + StatusCards("/master/reports", rs);
      Some(MasterView(s.user.value.name, cards, RecentPending(rs), RecentRows(rs),
                Stats(|rs|, CompletionRate(CountStatus(rs, Completed), |rs|), "2.5 jam", total)))
    else None
  }

  /** The completion rate a master sees never exceeds 100%. */
  lemma RenderedRateAtMostHundred(s: State)
    requires SessionHasRole(s, Master) && |s.allReports| > 0
    ensures var rate := Render(s).value.stats.completionRate;
            rate.Some? && 0 <= rate.value <= 100
  {
    CountMonotone(s.allReports, (x: Report) => x.status == Completed, (x: Report) => true);
    CompletionRateBounds(CountStatus(s.allReports, Completed), |s.allReports|);
  }
}

=== FILE: navbar.dfy ===
/** The navigation bar every signed-in page shows: role-based links, the
    unread-notification badge, the profile dropdown (profile, settings,
    logout) and the avatar. */
module Navbar {
  import opened Optional
  import opened Types
  import opened Seqs
  import opened Store

  /** `${user?.role}`: the role's name, or `undefined` without a user. */
  function RoleSegment(user: Option<User>): (r: string)
    ensures user.Some? ==> r == RoleName(user.value.role)
    ensures user.None? ==> r == "undefined"
  {
    match user
    case Some(u) => RoleName(u.role)
    case None => "undefined"
  }

  /** The page's three optional links. */
  datatype NavFlags = NavFlags(showReports: bool, showCreateReport: bool, showChat: bool)

  datatype NavLink = NavLink(text: string, href: string)

  /** The desktop (and mobile) links: the dashboard always, then reports,
      report creation and chat as the page asks; creation always points
      at the staff page, whatever the user's role. */
  function Links(user: Option<User>, f: NavFlags): (r: seq<NavLink>)
    ensures |r| == 1 + (if f.showReports then 1 else 0) + (if f.showCreateReport then 1 else 0)
                     + (if f.showChat then 1 else 0)
    ensures r[0] == NavLink("Dashboard", "/" + RoleSegment(user) + "/dashboard")
    ensures NavLink("Laporan", "/" + RoleSegment(user) + "/reports") in r <==> f.showReports
    ensures NavLink("Buat Laporan", "/staff/create-report") in r <==> f.showCreateReport
    ensures NavLink("Chat", "/" + RoleSegment(user) + "/chat") in r <==> f.showChat
  {
    var seg := RoleSegment(user);
    [NavLink("Dashboard", "/" + seg + "/dashboard")]
    + (if f.showReports then [NavLink("Laporan", "/" + seg + "/reports")] else [])
    + (if f.showCreateReport then [NavLink("Buat Laporan", "/staff/create-report")] else [])
    + (if f.showChat then [NavLink("Chat", "/" + seg + "/chat")] else [])
  }

  // ---------------------------------------------------------- notifications

  predicate IsUnread(n: Notification) {
    !n.read
  }

  /** `unreadCount`: the notifications not yet read. */
  function UnreadCount(ns: seq<Notification>): (r: nat)
    ensures r <= |ns|
    ensures r == |Filter(ns, IsUnread)|
  {
    CountMonotone(ns, IsUnread, (n: Notification) => true);
    FilterLength(ns, IsUnread);
    Count(ns, IsUnread)
  }

  /** The red badge shows exactly when some notification is unread. */
  lemma BadgeShownIffUnread(ns: seq<Notification>)
    ensures UnreadCount(ns) > 0 <==> exists i :: 0 <= i < |ns| && !ns[i].read
  {
  }

  /** A new unread notification raises the badge count by one, a read one
      leaves it. */
  lemma AddNotificationUnread(s: State, data: NotificationDraft, id: string)
    ensures UnreadCount(AddNotification(s, data, id).notifications)
            == UnreadCount(s.notifications) + (if data.read then 0 else 1)
  {
  }

  /** Marking a notification read drops from the count exactly the unread
      notifications carrying that id. */
  lemma {:induction false} MarkReadUnread(ns: seq<Notification>, id: string)
    ensures UnreadCount(MarkNotificationRead(State(None, ns, false, [], [], []), id).notifications)
            == Count(ns, (n: Notification) => !n.read && n.id != id)
    decreases |ns|
  {
    var ms := MarkNotificationRead(State(None, ns, false, [], [], []), id).notifications;
    if |ns| > 0 {
      var tail := MarkNotificationRead(State(None, ns[1..], false, [], [], []), id).notifications;
      MarkReadUnread(ns[1..], id);
      assert ms[1..] == tail;
    }
  }

  // --------------------------------------------------------------- dropdown

  /** The profile dropdown's entries: profile, settings for everyone who is
      not staff (a missing user included), logout. */
  function DropdownItems(user: Option<User>): (r: seq<string>)
    ensures |r| >= 2 && r[0] == "Profile" && r[|r| - 1] == "Logout"
    ensures "Settings" in r <==> user.None? || user.value.role != Staff
  {
    ["Profile"] + (if user.None? || user.value.role != Staff then ["Settings"] else []) + ["Logout"]
  }

  /** `handleSettingsClick()`: where the settings entry navigates, if anywhere. */
  function SettingsRoute(user: Option<User>): (r: Option<string>)
    ensures r.Some? <==> user.Some? && user.value.role != Staff
    ensures r.Some? ==> r.value == "/" + RoleName(user.value.role) + "/setting"
  {
    match user
    case Some(u) =>
      if u.role == Admin then Some("/admin/setting")
      else if u.role == Master then Some("/master/setting")
      else assert u.role == Staff; None
    case None => None
  }

  /** A settings entry that is shown leads somewhere except when there is no
      user, where it is shown and does nothing. */
  lemma SettingsEntryLeadsSomewhere(user: Option<User>)
    ensures "Settings" in DropdownItems(user) && user.Some? ==> SettingsRoute(user).Some?
    ensures user.None? ==> "Settings" in DropdownItems(user) && SettingsRoute(user).None?
  {
  }

  /** `handleLogout()`: ends the session and goes to the login page. */
  function HandleLogout(s: State): (r: (State, string))
    ensures r.0 == Logout(s) && r.1 == "/login"
    ensures UnreadCount(r.0.notifications) == 0
  {
    (Logout(s), "/login")
  }

  /** `user?.avatar || "/placeholder.svg"`. */
  function AvatarSrc(user: Option<User>): (r: string)
    ensures user.Some? && user.value.avatar.Some? && user.value.avatar.value != "" ==> r == user.value.avatar.value
    ensures user.None? || OrElse(user.value.avatar, "") == "" ==> r == "/placeholder.svg"
  {
    match user
    case Some(u) => OrElse(u.avatar, "/placeholder.svg")
    case None => "/placeholder.svg"
  }

  /** The mobile menu button flips the menu; a mobile link closes it. */
  function ToggleMobileMenu(open: bool): (r: bool)
    ensures r != open
  {
    !open
  }
}

=== FILE: optional.dfy ===
/** Optional values: the model's stand-in for TypeScript's `T | undefined`
    and `T | null`, together with JavaScript's truthiness of strings. */
module Optional {

  /** `None` is `undefined`/`null`; `Some(v)` is a present value. */
  datatype Option<T> = None | Some(value: T) {

    /** The value, or `default` when absent (`x ?? default`). */
    function GetOr(default: T): T {
      match this
      case Some(v) => v
      case None => default
    }
  }

  /** JavaScript's `s || fallback` on an optional string: an absent or empty
      string is falsy, so the fallback is taken. */
  function OrElse(s: Option<string>, fallback: string): (r: string)
    ensures s.Some? && s.value != "" ==> r == s.value
    ensures (s.None? || s.value == "") ==> r == fallback
  {
    if s.Some? && s.value != "" then s.value else fallback
  }

  /** JavaScript's `s || null` (or `s || undefined`): keeps only a non-empty string. */
  function Truthy(s: Option<string>): (r: Option<string>)
    ensures r.Some? <==> s.Some? && s.value != ""
    ensures r.Some? ==> r == s
  {
    if s.Some? && s.value != "" then s else None
  }
}

=== FILE: profile_modal.dfy ===
/** The profile dialog opened from the navbar: a form seeded from the
    session user, an avatar picker with a preview, a new-password pair that
    must match, and a submit that writes name, email, address and avatar
    through the store's `updateProfile`. The password fields are checked
    against each other and then dropped: nothing stores them. */
module ProfileModal {
  import opened Optional
  import opened Types
  import opened Store

  datatype ProfileForm = ProfileForm(
    name: string,
    email: string,
    address: string,
    currentPassword: string,
    newPassword: string,
    confirmPassword: string)

  /** The dialog's state. A chosen file is represented by the data URL the
      file reader produces for it. */
  datatype Modal = Modal(form: ProfileForm, preview: Option<string>, selectedFile: Option<string>)

  /** The form a user's profile fills in, with empty password fields. */
  function FormOf(u: User): (r: ProfileForm)
    ensures r.name == u.name && r.email == u.email
    ensures u.address.Some? ==> r.address == u.address.value
    ensures u.address.None? ==> r.address == ""
    ensures r.currentPassword == r.newPassword == r.confirmPassword == ""
  {
    ProfileForm(u.name, u.email, OrElse(u.address, ""), "", "", "")
  }

  /** The dialog as first rendered. */
  function Open(user: Option<User>): (r: Modal)
    ensures r.selectedFile.None?
    ensures user.Some? ==> r.form == FormOf(user.value) && r.preview == Truthy(user.value.avatar)
    ensures user.None? ==> r.form == ProfileForm("", "", "", "", "", "") && r.preview.None?
  {
    match user
    case Some(u) => Modal(FormOf(u), Truthy(u.avatar), None)
    case None => Modal(ProfileForm("", "", "", "", "", ""), None, None)
  }

  /** The effect that runs when the dialog opens or the user changes: the
      form and the preview are refilled from the user; a file chosen
      earlier stays selected. Without a user nothing changes. */
  function Reset(m: Modal, user: Option<User>): (r: Modal)
    ensures r.selectedFile == m.selectedFile
    ensures user.Some? ==> r.form == FormOf(user.value) && r.preview == Truthy(user.value.avatar)
    ensures user.None? ==> r == m
  {
    match user
    case Some(u) => m.(form := FormOf(u), preview := Truthy(u.avatar))
    case None => m
  }

  /** `handleFileChange()`: a chosen file becomes the selection and, once
      read, the preview; clearing the picker restores the user's avatar. */
  function HandleFileChange(m: Modal, user: Option<User>, file: Option<string>): (r: Modal)
    ensures r.form == m.form
    ensures r.selectedFile == file
    ensures file.Some? ==> r.preview == file
    ensures file.None? ==> r.preview == (if user.Some? then Truthy(user.value.avatar) else None)
  {
    match file
    case Some(url) => m.(selectedFile := Some(url), preview := Some(url))
    case None => m.(selectedFile := None, preview := if user.Some? then Truthy(user.value.avatar) else None)
  }

  const MismatchAlert := "Password baru tidak cocok!"
  const SavedAlert := "Profile berhasil diperbarui!"

  /** A non-empty new password that differs from its confirmation. */
  predicate PasswordsClash(f: ProfileForm) {
    f.newPassword != "" && f.newPassword != f.confirmPassword
  }

  /** The avatar `handleSubmit` sends: the preview when a file was chosen,
      otherwise the user's current one; an empty value becomes `undefined`. */
  function NewAvatar(m: Modal, user: Option<User>): (r: Option<string>)
    ensures r.Some? ==> r.value != ""
    ensures m.selectedFile.Some? ==> r == Truthy(m.preview)
    ensures m.selectedFile.None? && user.Some? ==> r == Truthy(user.value.avatar)
  {
    Truthy(if m.selectedFile.Some? then m.preview else if user.Some? then user.value.avatar else None)
  }

  /** The `Partial<User>` the dialog submits. */
  function ProfilePatch(m: Modal, user: Option<User>): UserPatch {
    UserPatch(Keep, Put(m.form.name), Put(m.form.email), Keep, Put(NewAvatar(m, user)),
              Put(Some(m.form.address)))
  }

  /** The outcome of a submit: the store, the alert shown and whether the
      dialog closed. */
  datatype Submitted = Submitted(state: State, alert: string, closed: bool)

  /** `handleSubmit()`: clashing passwords stop everything with an alert;
      otherwise the profile is updated, a success alert shown and the
      dialog closed. */
  function HandleSubmit(s: State, m: Modal): (r: Submitted)
    ensures PasswordsClash(m.form) ==> r == Submitted(s, MismatchAlert, false)
    ensures !PasswordsClash(m.form) ==> r.closed && r.alert == SavedAlert
    ensures !PasswordsClash(m.form) && s.user.Some? ==>
              && r.state.user.Some?
              && r.state.user.value.id == s.user.value.id
              && r.state.user.value.role == s.user.value.role
              && r.state.user.value.name == m.form.name
              && r.state.user.value.email == m.form.email
              && r.state.user.value.address == Some(m.form.address)
              && r.state.user.value.avatar == NewAvatar(m, s.user)
    ensures r.state.allUsers == s.allUsers
    ensures r.state == s.(user := r.state.user)
  {
    if PasswordsClash(m.form) then Submitted(s, MismatchAlert, false)
    else Submitted(UpdateProfile(s, ProfilePatch(m, s.user)), SavedAlert, true)
  }

  /** The passwords decide only whether the submit goes through: two
      accepted forms that differ only in their password fields store the
      same profile. */
  lemma PasswordsAreNeverStored(s: State, m: Modal, cur: string, pw: string)
    requires !PasswordsClash(m.form)
    ensures var m2 := m.(form := m.form.(currentPassword := cur, newPassword := pw, confirmPassword := pw));
            HandleSubmit(s, m2).state == HandleSubmit(s, m).state
  {
  }

  /** Opening the dialog and saving without edits keeps the profile, except
      that a missing address is stored as the empty string and an empty
      avatar as none. */
  lemma UntouchedSaveKeepsProfile(s: State)
    requires s.user.Some?
    ensures var u := s.user.value;
            HandleSubmit(s, Open(s.user)).state.user
            == Some(u.(address := Some(OrElse(u.address, "")), avatar := Truthy(u.avatar)))
  {
  }

  /** A picked file is what the saved profile shows as its avatar. */
  lemma PickedFileBecomesAvatar(s: State, m: Modal, url: string)
    requires s.user.Some? && url != "" && !PasswordsClash(m.form)
    ensures HandleSubmit(s, HandleFileChange(m, s.user, Some(url))).state.user.value.avatar == Some(url)
  {
  }
}

=== FILE: report_queries.dfy ===
/** The report queries the dashboards compute from the store's list:
    per-status counts and the "five newest pending reports" shown in the
    incoming-reports table (`filter` by pending, `sort` by `createdAt`
    descending, `slice(0, 5)`). */
module ReportQueries {
  import opened Types
  import opened Seqs

  /** `reports.filter(r => r.status === st).length`: the status count,
      kept as an independent `Count`, is the length of the filtered list. */
  function CountStatus(rs: seq<Report>, st: Status): (r: nat)
    ensures r == |Filter(rs, (x: Report) => x.status == st)|
    ensures r <= |rs|
  {
    FilterLength(rs, (x: Report) => x.status == st);
    Count(rs, (x: Report) => x.status == st)
  }

  /** The four status counts partition the list: the completed, in-progress
      and pending counts fall short of the total by the rejected count. */
  lemma {:induction false} CountsPartition(rs: seq<Report>)
    ensures CountStatus(rs, Completed) + CountStatus(rs, InProgress) + CountStatus(rs, Pending)
            + CountStatus(rs, Rejected) == |rs|
    decreases |rs|
  {
    if |rs| > 0 {
      CountsPartition(rs[1..]);
    }
  }

  /** Ordered by `createdAt`, newest first. */
  predicate NewestFirst(rs: seq<Report>) {
    forall i, j :: 0 <= i < j < |rs| ==> rs[j].createdAt <= rs[i].createdAt
  }

  /** No report in the list is newer than `t`. */
  predicate NoneNewerThan(rs: seq<Report>, t: int) {
    forall j :: 0 <= j < |rs| ==> rs[j].createdAt <= t
  }

  /** Lists with the same elements have the same newest time bound. */
  lemma NoneNewerThanPermutation(a: seq<Report>, b: seq<Report>, t: int)
    requires multiset(a) == multiset(b)
    requires NoneNewerThan(b, t)
    ensures NoneNewerThan(a, t)
  {
    forall j | 0 <= j < |a|
      ensures a[j].createdAt <= t
    {
      assert a[j] in multiset(b);
    }
  }

  /** Inserts `x` into a newest-first list ahead of every report that is
      not newer than it. */
  function Insert(x: Report, rs: seq<Report>): (r: seq<Report>)
    requires NewestFirst(rs)
    ensures NewestFirst(r)
    ensures multiset(r) == multiset(rs) + multiset{x}
  {
    if |rs| == 0 then [x]
    else if rs[0].createdAt <= x.createdAt then [x] + rs
    else
      var tail := Insert(x, rs[1..]);
      assert rs == [rs[0]] + rs[1..];
      assert NoneNewerThan(rs[1..] + [x], rs[0].createdAt);
      NoneNewerThanPermutation(tail, rs[1..] + [x], rs[0].createdAt);
      [rs[0]] + tail
  }

  /** The descending sort: a newest-first permutation of its input. */
  function SortNewestFirst(rs: seq<Report>): (r: seq<Report>)
    ensures NewestFirst(r)
    ensures multiset(r) == multiset(rs)
  {
    if |rs| == 0 then []
    else
      assert rs == [rs[0]] + rs[1..];
      Insert(rs[0], SortNewestFirst(rs[1..]))
  }

  /** A permutation of the pending reports holds exactly the pending reports. */
  lemma PendingPermutation(rs: seq<Report>, t: seq<Report>)
    requires multiset(t) == multiset(Filter(rs, (x: Report) => x.status == Pending))
    ensures |t| == CountStatus(rs, Pending)
    ensures forall i :: 0 <= i < |t| ==> t[i].status == Pending && t[i] in rs
    ensures forall x :: x in rs && x.status == Pending ==> x in t
  {
    var pending := Filter(rs, (x: Report) => x.status == Pending);
    FilterLength(rs, (x: Report) => x.status == Pending);
    assert |t| == |multiset(t)| == |multiset(pending)| == |pending|;
    forall i | 0 <= i < |t|
      ensures t[i].status == Pending && t[i] in rs
    {
      assert t[i] in multiset(pending);
    }
    forall x | x in rs && x.status == Pending
      ensures x in t
    {
      assert x in pending;
      assert x in multiset(t);
    }
  }

  /** In a newest-first list, whatever lies beyond the first `n` is no
      newer than anything among them. */
  lemma PrefixIsNewest(t: seq<Report>, n: nat)
    requires NewestFirst(t) && n <= |t|
    ensures forall x, i :: x in t && x !in t[..n] && 0 <= i < n ==> x.createdAt <= t[i].createdAt
  {
    assert forall j :: 0 <= j < n ==> t[j] == t[..n][j];
    forall x, i | x in t && x !in t[..n] && 0 <= i < n
      ensures x.createdAt <= t[i].createdAt
    {
      var j :| 0 <= j < |t| && t[j] == x;
    }
  }

  /** A prefix holds no report more often than the whole list does. */
  lemma PrefixMultiset(t: seq<Report>, n: nat)
    requires n <= |t|
    ensures multiset(t[..n]) <= multiset(t)
  {
    assert t == t[..n] + t[n..];
  }

  /** A prefix of a newest-first list is newest first and holds only
      elements of the list. */
  lemma PrefixOrder(t: seq<Report>, n: nat)
    requires NewestFirst(t) && n <= |t|
    ensures NewestFirst(t[..n])
    ensures forall i :: 0 <= i < n ==> t[..n][i] in t
  {
    assert forall i :: 0 <= i < n ==> t[..n][i] == t[i];
  }

  /** The pending reports, newest first. */
  function PendingNewestFirst(rs: seq<Report>): (r: seq<Report>)
    ensures NewestFirst(r)
    ensures multiset(r) == multiset(Filter(rs, (x: Report) => x.status == Pending))
  {
    SortNewestFirst(Filter(rs, (x: Report) => x.status == Pending))
  }

  /** `recentIncomingReports`: at most five pending reports, newest first;
      each shown report is a distinct pending report of the store (no
      report is shown more often than the store holds it), and no pending
      report left out is newer than one that is shown. */
  function RecentPending(rs: seq<Report>): (r: seq<Report>)
    ensures |r| == if CountStatus(rs, Pending) < 5 then CountStatus(rs, Pending) else 5
    ensures forall i :: 0 <= i < |r| ==> r[i].status == Pending && r[i] in rs
    ensures multiset(r) <= multiset(Filter(rs, (x: Report) => x.status == Pending))
    ensures NewestFirst(r)
    ensures forall x, i :: x in rs && x.status == Pending && x !in r && 0 <= i < |r|
                           ==> x.createdAt <= r[i].createdAt
  {
    var t := PendingNewestFirst(rs);
    var n := if |t| < 5 then |t| else 5;
    PendingPermutation(rs, t);
    PrefixIsNewest(t, n);
    PrefixMultiset(t, n);
    PrefixOrder(t, n);
    t[..n]
  }
}

=== FILE: report_table.dfy ===
/** The report table shared by the admin and master report pages: status
    labels and badge classes, creator/assignee name lookup, the columns a
    table shows under its three display flags, and the two actions it
    forwards to the page (status change and assignment). */
module ReportTable {
  import opened Optional
  import opened Types
  import opened Seqs

  const GreenBadge := "bg-green-100 text-green-800"
  const BlueBadge := "bg-blue-100 text-blue-800"
  const RedBadge := "bg-red-100 text-red-800"
  /** The gray class, also the `default` branch of the badge switch. */
  const GrayBadge := "bg-gray-100 text-gray-800"
  /** The label of the `default` branch of the status-text switch. */
  const UnknownStatusText := "Tidak Diketahui"
  const NoUserText := "N/A"
  const MissingUserText := "User Tidak Ditemukan"
  const EmptyTableText := "Tidak ada laporan yang ditemukan."

  /** `getStatusBadge(status)`: pending is the red badge and rejected
      shares the gray class of the `default` branch. */
  function StatusBadge(st: Status): (r: string)
    ensures r == RedBadge <==> st == Pending
    ensures r == GrayBadge <==> st == Rejected
  {
    match st
    case Completed => GreenBadge
    case InProgress => BlueBadge
    case Pending => RedBadge
    case Rejected => GrayBadge
  }

  /** `getStatusText(status)`: every status has its own case, so the
      `default` label is never produced. */
  function StatusText(st: Status): (r: string)
    ensures r != UnknownStatusText
    ensures r == "Pending" <==> st == Pending
  {
    match st
    case Completed => "Selesai"
    case InProgress => "Dikerjakan"
    case Pending => "Pending"
    case Rejected => "Ditolak"
  }

  /** The four statuses get four different labels, none of them the
      unknown-status label; completed, in-progress and pending get three
      different badge colours, and rejected shares the gray default. */
  lemma StatusLabels(a: Status, b: Status)
    ensures StatusText(a) == StatusText(b) <==> a == b
    ensures StatusText(a) != UnknownStatusText
    ensures StatusBadge(a) == StatusBadge(b) <==> a == b
    ensures StatusBadge(Rejected) == GrayBadge
    ensures a != Rejected ==> StatusBadge(a) != GrayBadge
  {
  }

  /** The choices of the per-row status `<select>`, value and label. */
  const StatusOptions: seq<(Status, string)> :=
    [(Pending, "Pending"), (InProgress, "Dikerjakan"), (Completed, "Selesai"), (Rejected, "Ditolak")]

  /** The select offers every status exactly once, each labelled as the
      status column labels it. */
  lemma StatusOptionsMatchLabels(st: Status)
    ensures forall i :: 0 <= i < |StatusOptions| ==> StatusOptions[i].1 == StatusText(StatusOptions[i].0)
    ensures exists i :: 0 <= i < |StatusOptions| && StatusOptions[i].0 == st
    ensures forall i, j :: 0 <= i < j < |StatusOptions| ==> StatusOptions[i].0 != StatusOptions[j].0
  {
    match st
    case Pending => assert StatusOptions[0].0 == st;
    case InProgress => assert StatusOptions[1].0 == st;
    case Completed => assert StatusOptions[2].0 == st;
    case Rejected => assert StatusOptions[3].0 == st;
  }

  /** Some directory entry carries this id. */
  predicate HasUser(users: seq<User>, id: string) {
    exists i :: 0 <= i < |users| && users[i].id == id
  }

  /** `getUserName(userId?)`: `N/A` for a missing or empty id, the first
      matching user's name, or the not-found text for a dangling id. */
  function UserName(users: seq<User>, id: Option<string>): (r: string)
    ensures (id.None? || id.value == "") ==> r == NoUserText
    ensures id.Some? && id.value != "" && !HasUser(users, id.value) ==> r == MissingUserText
    ensures id.Some? && id.value != "" && HasUser(users, id.value) ==>
              exists i :: 0 <= i < |users| && users[i].id == id.value && r == users[i].name
                          && forall j :: 0 <= j < i ==> users[j].id != id.value
  {
    if id.None? || id.value == "" then NoUserText
    else match Find(users, (u: User) => u.id == id.value)
         case Some(u) => u.name
         case None => MissingUserText
  }

  /** `staffUsers`: the users a report may be assigned to, staff and admins. */
  function AssignableUsers(users: seq<User>): (r: seq<User>)
    ensures IsSubsequence(r, users)
    ensures forall i :: 0 <= i < |r| ==> r[i].role != Master
    ensures forall i :: 0 <= i < |users| && users[i].role != Master ==> users[i] in r
  {
    var p := (u: User) => u.role == Staff || u.role == Admin;
    FilterIsSubsequence(users, p);
    Filter(users, p)
  }

  // ------------------------------------------------------------- forwarding

  /** A call the table makes on the page's `onReportUpdate(id, data)`. */
  datatype Forward = Forward(id: string, data: ReportPatch)

  /** `handleStatusChange(reportId, newStatus)`: forwards `{ status }`, and
      only when the page supplied an update handler. */
  function HandleStatusChange(hasUpdater: bool, reportId: string, newStatus: Status): (r: Option<Forward>)
    ensures r.Some? <==> hasUpdater
    ensures r.Some? ==> r.value.id == reportId
                        && r.value.data == NoReportChange.(status := Put(newStatus))
  {
    if hasUpdater then Some(Forward(reportId, NoReportChange.(status := Put(newStatus)))) else None
  }

  /** The assignment dialog's state. */
  datatype AssignModal = AssignModal(show: bool, selected: Option<Report>, assignedToId: string)

  const ClosedModal := AssignModal(false, None, "")

  /** `handleAssignClick(report)`: opens the dialog preselecting the current assignee. */
  function HandleAssignClick(report: Report): (r: AssignModal)
    ensures r.show && r.selected == Some(report)
    ensures r.assignedToId == OrElse(report.assignedTo, "")
  {
    AssignModal(true, Some(report), OrElse(report.assignedTo, ""))
  }

  datatype AssignResult = AssignResult(modal: AssignModal, call: Option<Forward>)

  /** `handleAssignSubmit()`: forwards `{ assignedTo: assignedToId || undefined }`
      for the selected report and closes the dialog; without a selected
      report or an update handler nothing happens. */
  function HandleAssignSubmit(m: AssignModal, hasUpdater: bool): (r: AssignResult)
    ensures r.call.Some? <==> m.selected.Some? && hasUpdater
    ensures r.call.Some? ==> r.call.value.id == m.selected.value.id
                             && r.call.value.data.assignedTo.Put?
                             && r.call.value.data == NoReportChange.(assignedTo := r.call.value.data.assignedTo)
                             && (r.call.value.data.assignedTo.value.None? <==> m.assignedToId == "")
                             && (m.assignedToId != "" ==> r.call.value.data.assignedTo.value == Some(m.assignedToId))
                             && r.modal == ClosedModal
    ensures r.call.None? ==> r.modal == m
  {
    if m.selected.Some? && hasUpdater then
      AssignResult(ClosedModal,
                   Some(Forward(m.selected.value.id,
                                NoReportChange.(assignedTo := Put(Truthy(Some(m.assignedToId)))))))
    else AssignResult(m, None)
  }

  /** Opening the dialog and submitting it unchanged forwards the report's
      current assignee (an empty one as `undefined`). */
  lemma AssignUnchangedKeepsAssignee(report: Report)
    ensures HandleAssignSubmit(HandleAssignClick(report), true).call
            == Some(Forward(report.id, NoReportChange.(assignedTo := Put(Truthy(report.assignedTo)))))
  {
  }

  // ---------------------------------------------------------------- columns

  /** The table's three display props; each defaults to `true`. */
  datatype TableFlags = TableFlags(showActions: bool, showAssignedTo: bool, showCreatedBy: bool)

  const DefaultFlags := TableFlags(true, true, true)

  function Bit(b: bool): nat {
    if b then 1 else 0
  }

  /** The header cells the table renders under the flags. */
  function Headers(f: TableFlags): seq<string> {
    ["Judul"] + (if f.showCreatedBy then ["Dibuat Oleh"] else []) + ["Status"]
    + (if f.showAssignedTo then ["Ditugaskan Ke"] else []) + ["Tanggal"]
    + (if f.showActions then ["Aksi"] else [])
  }

  /** The `colSpan` of the empty-table row, computed as the nested
      conditional does: three fixed columns plus one per flag that is on,
      which is exactly the number of header cells. */
  function EmptyColSpan(f: TableFlags): (r: nat)
    ensures r == 3 + Bit(f.showActions) + Bit(f.showAssignedTo) + Bit(f.showCreatedBy)
    ensures r == |Headers(f)|
  {
    if f.showActions && f.showAssignedTo && f.showCreatedBy then 6
    else if (f.showActions && f.showAssignedTo) || (f.showActions && f.showCreatedBy)
            || (f.showAssignedTo && f.showCreatedBy) then 5
    else if f.showActions || f.showAssignedTo || f.showCreatedBy then 4
    else 3
  }

  // ------------------------------------------------------------------- rows

  datatype Cell =
    | TitleCell(title: string, description: string)
    | CreatorCell(name: string)
    | StatusCell(badge: string, text: string)
    | AssigneeCell(name: string)
    | DateCell(createdAt: int)
    | ActionsCell(detailHref: string, canUpdate: bool, canDelete: bool)

  datatype Row = EmptyRow(colSpan: nat, text: string) | DataRow(report: Report, cells: seq<Cell>)

  /** The number of columns a row occupies. */
  function Width(r: Row): nat {
    match r
    case EmptyRow(n, _) => n
    case DataRow(_, cells) => |cells|
  }

  /** The cells of one report's row. */
  function RowCells(r: Report, users: seq<User>, f: TableFlags, hasUpdater: bool,
                    hasDeleter: bool, basePath: string): seq<Cell>
  {
    [TitleCell(r.title, r.description)]
    + (if f.showCreatedBy then [CreatorCell(UserName(users, Some(r.createdBy)))] else [])
    + [StatusCell(StatusBadge(r.status), StatusText(r.status))]
    + (if f.showAssignedTo then [AssigneeCell(UserName(users, r.assignedTo))] else [])
    + [DateCell(r.createdAt)]
    + (if f.showActions then [ActionsCell(basePath + "/" + r.id, hasUpdater, hasDeleter)] else [])
  }

  /** The table body: one row per report in the given order, or a single
      placeholder row when there is none; every row spans exactly the
      header's columns. */
  function Rows(reports: seq<Report>, users: seq<User>, f: TableFlags, hasUpdater: bool,
                hasDeleter: bool, basePath: string): (r: seq<Row>)
    ensures |reports| == 0 ==> r == [EmptyRow(|Headers(f)|, EmptyTableText)]
    ensures |reports| > 0 ==> |r| == |reports|
                              && forall i :: 0 <= i < |r| ==> r[i].DataRow? && r[i].report == reports[i]
    ensures forall i :: 0 <= i < |r| ==> Width(r[i]) == |Headers(f)|
  {
    if |reports| == 0 then [EmptyRow(EmptyColSpan(f), EmptyTableText)]
    else seq(|reports|, i requires 0 <= i < |reports| =>
               DataRow(reports[i], RowCells(reports[i], users, f, hasUpdater, hasDeleter, basePath)))
  }
}

=== FILE: reports_page.dfy ===
/** The admin and master report lists. Both pages keep a status filter
    (initially `all`) that a non-empty `status` URL parameter overrides,
    show the store's reports through that filter in a report table, and
    forward the table's edits to the store's `updateReport`. The master
    page also offers a delete button that only asks and alerts. */
module ReportsPage {
  import opened Optional
  import opened Types
  import opened Seqs
  import opened Store
  import opened ReportQueries
  import RT = ReportTable

  /** The filter value that shows every report. */
  const AllFilter := "all"

  /** The effect of the `status` search parameter: a present, non-empty
      value replaces the filter, anything else leaves it as it was. The
      value is taken as it comes, so it need not name a status at all. */
  function ApplyStatusParam(filter: string, param: Option<string>): (r: string)
    ensures param.Some? && param.value != "" ==> r == param.value
    ensures param.None? || param.value == "" ==> r == filter
  {
    match param
    case Some(v) => if v != "" then v else filter
    case None => filter
  }

  /** Whether the report passes the filter's status comparison. */
  predicate HasStatusNamed(r: Report, filter: string) {
    StatusName(r.status) == filter
  }

  /** `filteredReports`: every report for `all`, otherwise the reports whose
      status string equals the filter, in store order. */
  function FilteredReports(rs: seq<Report>, filter: string): (r: seq<Report>)
    ensures filter == AllFilter ==> r == rs
    ensures IsSubsequence(r, rs)
    ensures filter != AllFilter ==>
              (forall i :: 0 <= i < |r| ==> HasStatusNamed(r[i], filter))
              && (forall i :: 0 <= i < |rs| && HasStatusNamed(rs[i], filter) ==> rs[i] in r)
  {
    if filter == AllFilter then
      IsSubsequenceRefl(rs);
      rs
    else
      var p := (x: Report) => HasStatusNamed(x, filter);
      FilterIsSubsequence(rs, p);
      Filter(rs, p)
  }

  /** Every list is a subsequence of itself. */
  lemma {:induction false} IsSubsequenceRefl(rs: seq<Report>)
    ensures IsSubsequence(rs, rs)
    decreases |rs|
  {
    if |rs| > 0 {
      IsSubsequenceRefl(rs[1..]);
    }
  }

  /** Filtering by a status's name lists exactly as many reports as the
      dashboards count for that status. */
  lemma StatusFilterMatchesCount(rs: seq<Report>, st: Status)
    ensures |FilteredReports(rs, StatusName(st))| == CountStatus(rs, st)
  {
    AllIsNoStatus(st);
    forall i | 0 <= i < |rs|
      ensures HasStatusNamed(rs[i], StatusName(st)) == (rs[i].status == st)
    {
      StatusNameInjective(rs[i].status, st);
    }
    FilterCongruent(rs, (x: Report) => HasStatusNamed(x, StatusName(st)), (x: Report) => x.status == st);
    FilterLength(rs, (x: Report) => x.status == st);
  }

  /** A filter value that is neither `all` nor a status name (a hand-typed
      URL parameter) shows an empty list. */
  lemma UnknownFilterShowsNothing(rs: seq<Report>, filter: string)
    requires filter != AllFilter
    requires forall st: Status :: StatusName(st) != filter
    ensures FilteredReports(rs, filter) == []
  {
    var r := FilteredReports(rs, filter);
    assert forall i :: 0 <= i < |r| ==> StatusName(r[i].status) == filter;
  }

  /** The page body: nothing unless the session belongs to the page's role,
      otherwise the filtered reports. */
  function View(s: State, role: Role, filter: string): (r: Option<seq<Report>>)
    ensures r.Some? <==> SessionHasRole(s, role)
    ensures r.Some? ==> r.value == FilteredReports(s.allReports, filter)
  {
    if SessionHasRole(s, role) then Some(FilteredReports(GetAllReports(s), filter)) else None
  }

  /** The table both pages render: every column shown, with an update
      handler; only the master page passes a delete handler. */
  function Table(s: State, role: Role, filter: string): (r: seq<RT.Row>)
    ensures forall i :: 0 <= i < |r| ==> RT.Width(r[i]) == 6
    ensures |r| >= 1
    ensures var fr := FilteredReports(s.allReports, filter);
            && (|fr| == 0 ==> r == [RT.EmptyRow(6, RT.EmptyTableText)])
            && (|fr| > 0 ==>
                  && |r| == |fr|
                  && forall i :: 0 <= i < |r| ==>
                       && r[i].DataRow? && r[i].report == fr[i]
                       && |r[i].cells| == 6
                       && r[i].cells[|r[i].cells| - 1].ActionsCell?
                       && r[i].cells[|r[i].cells| - 1].canUpdate
                       && r[i].cells[|r[i].cells| - 1].canDelete == (role == Master))
  {
    var base := if role == Master then "/master/reports" else "/admin/reports";
    RT.Rows(FilteredReports(s.allReports, filter), s.allUsers, RT.DefaultFlags, true,
            role == Master, base)
  }

  /** `handleReportUpdate(id, data)`: hands the table's call to the store. */
  function HandleReportUpdate(s: State, call: RT.Forward, now: int, noteId: string): (r: State)
    ensures r.allReports == UpdatedReports(s.allReports, call.id, call.data, now)
    ensures r.allUsers == s.allUsers && r.user == s.user && r.chatMessages == s.chatMessages
    ensures HasReport(s.allReports, call.id) && KeepsId(call.data.id, call.id) ==>
              |r.notifications| == |s.notifications| + 1
              && r.notifications[1..] == s.notifications
              && r.notifications[0].kind == Info && !r.notifications[0].read
              && GetReportById(r, call.id).Some?
              && r.notifications[0].message
                 == UpdatedMessage(GetReportById(r, call.id).value.title,
                                   GetReportById(r, call.id).value.status)
    ensures !(HasReport(s.allReports, call.id) && KeepsId(call.data.id, call.id)) ==>
              r.notifications == s.notifications
    ensures r == s.(allReports := r.allReports, notifications := r.notifications)
  {
    UpdateReport(s, call.id, call.data, now, noteId)
  }

  /** Submitting an emptied assignment dialog through the page leaves the
      selected report unassigned in the store, with every other field but
      the update time as it was. */
  lemma ClearingAssigneeReachesStore(s: State, m: RT.AssignModal, now: int, noteId: string, i: nat)
    requires m.selected.Some? && m.assignedToId == ""
    requires i < |s.allReports| && s.allReports[i].id == m.selected.value.id
    ensures var call := RT.HandleAssignSubmit(m, true).call;
            && call.Some?
            && HandleReportUpdate(s, call.value, now, noteId).allReports[i]
               == s.allReports[i].(assignedTo := None, updatedAt := Some(now))
  {
  }

  /** A status picked in a row reaches the store: that report now has it. */
  lemma StatusChangeReachesStore(s: State, st: Status, now: int, noteId: string, i: nat)
    requires i < |s.allReports|
    ensures var call := RT.HandleStatusChange(true, s.allReports[i].id, st);
            && call.Some?
            && HandleReportUpdate(s, call.value, now, noteId).allReports[i]
               == s.allReports[i].(status := st, updatedAt := Some(now))
  {
  }

  datatype DeleteOutcome = DeleteOutcome(state: State, alerted: bool)

  /** The master page's `handleReportDelete(id)`: after a confirmed prompt
      it only alerts that deleting is not implemented; the store is never
      touched, so the report stays listed. */
  function HandleReportDelete(s: State, id: string, confirmed: bool): (r: DeleteOutcome)
    ensures r.alerted <==> confirmed
    ensures r.state == s
    ensures HasReport(s.allReports, id) ==> HasReport(r.state.allReports, id)
  {
    DeleteOutcome(s, confirmed)
  }
}

=== FILE: seqs.dfy ===
/** Sequence combinators the source uses through `Array.prototype`:
    `filter`, `find`, `filter(..).length`, and the order-preserving
    subsequence relation that describes what `filter` returns. */
module Seqs {
  import opened Optional

  /** `s.filter(p)`: the elements satisfying `p`, in their original order. */
  function Filter<T(==)>(s: seq<T>, p: T -> bool): (r: seq<T>)
    ensures |r| <= |s|
    ensures forall i :: 0 <= i < |r| ==> r[i] in s && p(r[i])
    ensures forall i :: 0 <= i < |s| && p(s[i]) ==> s[i] in r
  {
    if |s| == 0 then []
    else if p(s[0]) then [s[0]] + Filter(s[1..], p)
    else Filter(s[1..], p)
  }

  /** `s.filter(p).length`, defined independently of `Filter`. */
  function Count<T>(s: seq<T>, p: T -> bool): (r: nat)
    ensures r <= |s|
    ensures r == 0 <==> forall i :: 0 <= i < |s| ==> !p(s[i])
  {
    if |s| == 0 then 0
    else
      var rest := Count(s[1..], p);
      assert forall i :: 1 <= i < |s| ==> s[i] == s[1..][i - 1];
      (if p(s[0]) then 1 else 0) + rest
  }

  /** `a` is `b` with some elements removed and the rest kept in order. */
  predicate IsSubsequence<T(==)>(a: seq<T>, b: seq<T>)
    decreases |b|
  {
    if |a| == 0 then true
    else if |b| == 0 then false
    else (a[0] == b[0] && IsSubsequence(a[1..], b[1..])) || IsSubsequence(a, b[1..])
  }

  /** Index of the first element satisfying `p`, as `findIndex` computes it. */
  function FindIndex<T>(s: seq<T>, p: T -> bool): (r: Option<nat>)
    ensures r.Some? ==> r.value < |s| && p(s[r.value])
    ensures r.Some? ==> forall j :: 0 <= j < r.value ==> !p(s[j])
    ensures r.None? ==> forall j :: 0 <= j < |s| ==> !p(s[j])
  {
    if |s| == 0 then None
    else if p(s[0]) then Some(0)
    else
      match FindIndex(s[1..], p)
      case None => None
      case Some(k) => Some(k + 1)
  }

  /** `s.find(p)`: the first element satisfying `p`, or `undefined`. */
  function Find<T(==)>(s: seq<T>, p: T -> bool): (r: Option<T>)
    ensures r.Some? <==> exists i :: 0 <= i < |s| && p(s[i])
    ensures r.Some? ==> r.value in s && p(r.value)
    ensures r.Some? ==> exists i :: 0 <= i < |s| && s[i] == r.value
                                 && forall j :: 0 <= j < i ==> !p(s[j])
  {
    match FindIndex(s, p)
    case None => None
    case Some(i) => Some(s[i])
  }

  /** Whatever `filter` keeps is an order-preserving subsequence of its input. */
  lemma {:induction false} FilterIsSubsequence<T>(s: seq<T>, p: T -> bool)
    ensures IsSubsequence(Filter(s, p), s)
    decreases |s|
  {
    if |s| > 0 {
      FilterIsSubsequence(s[1..], p);
      if p(s[0]) {
        assert Filter(s, p)[1..] == Filter(s[1..], p);
      }
    }
  }

  /** The length of a filter is the number of elements satisfying the predicate. */
  lemma {:induction false} FilterLength<T>(s: seq<T>, p: T -> bool)
    ensures |Filter(s, p)| == Count(s, p)
    decreases |s|
  {
    if |s| > 0 {
      FilterLength(s[1..], p);
    }
  }

  /** A filter keeps exactly the elements satisfying its predicate, with multiplicity. */
  lemma {:induction false} FilterMultiset<T>(s: seq<T>, p: T -> bool, x: T)
    ensures multiset(Filter(s, p))[x] == if p(x) then multiset(s)[x] else 0
    decreases |s|
  {
    if |s| > 0 {
      FilterMultiset(s[1..], p, x);
      assert s == [s[0]] + s[1..];
    }
  }

  /** Filtering with a predicate that holds of every element changes nothing. */
  lemma {:induction false} FilterAll<T>(s: seq<T>, p: T -> bool)
    requires forall i :: 0 <= i < |s| ==> p(s[i])
    ensures Filter(s, p) == s
    decreases |s|
  {
    if |s| > 0 {
      FilterAll(s[1..], p);
      assert s == [s[0]] + s[1..];
    }
  }

  /** Predicates that agree on every element filter alike. */
  lemma {:induction false} FilterCongruent<T>(s: seq<T>, p: T -> bool, q: T -> bool)
    requires forall i :: 0 <= i < |s| ==> p(s[i]) == q(s[i])
    ensures Filter(s, p) == Filter(s, q)
    decreases |s|
  {
    if |s| > 0 {
      FilterCongruent(s[1..], p, q);
    }
  }

  /** Filtering distributes over concatenation. */
  lemma {:induction false} FilterAppend<T>(a: seq<T>, b: seq<T>, p: T -> bool)
    ensures Filter(a + b, p) == Filter(a, p) + Filter(b, p)
    decreases |a|
  {
    if |a| > 0 {
      FilterAppend(a[1..], b, p);
      assert (a + b)[0] == a[0];
      assert (a + b)[1..] == a[1..] + b;
    } else {
      assert a + b == b;
    }
  }

  /** Counts with disjoint predicates add up to the count of their union. */
  lemma {:induction false} CountSplit<T>(s: seq<T>, p: T -> bool, q: T -> bool, pq: T -> bool)
    requires forall x :: pq(x) <==> p(x) || q(x)
    requires forall x :: !(p(x) && q(x))
    ensures Count(s, pq) == Count(s, p) + Count(s, q)
    decreases |s|
  {
    if |s| > 0 {
      CountSplit(s[1..], p, q, pq);
    }
  }

  /** Counting with a predicate true everywhere gives the length. */
  lemma {:induction false} CountAll<T>(s: seq<T>, p: T -> bool)
    requires forall x :: p(x)
    ensures Count(s, p) == |s|
    decreases |s|
  {
    if |s| > 0 {
      CountAll(s[1..], p);
    }
  }

  /** A count never exceeds the length, and counts under a stronger predicate are smaller. */
  lemma {:induction false} CountMonotone<T>(s: seq<T>, p: T -> bool, q: T -> bool)
    requires forall x :: p(x) ==> q(x)
    ensures Count(s, p) <= Count(s, q) <= |s|
    decreases |s|
  {
    if |s| > 0 {
      CountMonotone(s[1..], p, q);
    }
  }
}

=== FILE: staff_dashboard.dfy ===
/** The staff dashboard: a card linking to the report form, a card
    counting the signed-in staff member's completed reports, and the FAQ
    panel. The completed count is taken from the fixed seed reports the
    store starts with, not from the store's live list. */
module StaffDashboard {
  import opened Optional
  import opened Types
  import opened Seqs
  import opened Store

  /** The filter predicate `r.createdBy === user.id`. */
  function CreatedBy(userId: string): Report -> bool {
    (x: Report) => x.createdBy == userId
  }

  /** The filter predicate `r.status === "completed"`. */
  predicate IsCompleted(x: Report) {
    x.status == Completed
  }

  /** `userReports`: the seed reports this user created, in seed order. */
  function UserReports(userId: string): (r: seq<Report>)
    ensures IsSubsequence(r, SeedReports)
    ensures forall i :: 0 <= i < |r| ==> r[i].createdBy == userId
    ensures forall i :: 0 <= i < |SeedReports| && SeedReports[i].createdBy == userId ==> SeedReports[i] in r
  {
    FilterIsSubsequence(SeedReports, CreatedBy(userId));
    Filter(SeedReports, CreatedBy(userId))
  }

  /** `completedReports`: how many of them are completed. */
  function CompletedCount(userId: string): (r: nat)
    ensures r <= |UserReports(userId)|
  {
    var rs := UserReports(userId);
    CountMonotone(rs, IsCompleted, (x: Report) => true);
    Count(rs, IsCompleted)
  }

  datatype StaffView = StaffView(welcomeName: string, completed: nat, createLink: string)

  /** The page: nothing unless a staff member is signed in. */
  function Render(s: State): (r: Option<StaffView>)
    ensures r.Some? <==> SessionHasRole(s, Staff)
    ensures r.Some? ==> r.value.completed == CompletedCount(s.user.value.id)
                        && r.value.welcomeName == s.user.value.name
                        && r.value.createLink == "/staff/create-report"
  {
    if SessionHasRole(s, Staff) then
      Some(StaffView(s.user.value.name, CompletedCount(s.user.value.id), "/staff/create-report"))
    else None
  }

  /** The card depends only on the session: filing a report and completing
      it in the store leave it as it was. */
  lemma CardIgnoresStore(s: State, data: ReportDraft, id: string, noteId: string, now: int,
                         patch: ReportPatch, later: int)
    ensures var s1 := AddReport(s, data, id, noteId, now);
            var s2 := UpdateReport(s1, id, patch.(status := Put(Completed)), later, noteId);
            Render(s2) == Render(s)
  {
  }

  /** For the seeded staff account the card reads two: every seed report
      carries its id, and two of them are completed. */
  lemma SeedStaffCount()
    ensures CompletedCount("2") == 2
  {
    SeedReportsAllByStaff();
    SeedCompletedCount();
  }

  /** Every seed report was created by the seeded staff account. */
  lemma SeedReportsAllByStaff()
    ensures UserReports("2") == SeedReports
  {
    assert forall i :: 0 <= i < |SeedReports| ==> CreatedBy("2")(SeedReports[i]);
    FilterAll(SeedReports, CreatedBy("2"));
  }

  /** Two of the five seed reports are completed. */
  lemma SeedCompletedCount()
    ensures Count(SeedReports, IsCompleted) == 2
  {
    var rs := SeedReports;
    assert Count(rs[4..], IsCompleted) == 0;
    assert Count(rs[3..], IsCompleted) == 1;
    assert Count(rs[2..], IsCompleted) == 2;
    assert Count(rs[1..], IsCompleted) == 2;
  }

  /** For any other id no seed report names it, and the card reads zero. */
  lemma OtherUsersCountZero(other: string)
    requires other != "2"
    ensures CompletedCount(other) == 0
  {
    assert forall i :: 0 <= i < |SeedReports| ==> !CreatedBy(other)(SeedReports[i]);
    NoneMatchFiltersEmpty(SeedReports, CreatedBy(other));
  }

  /** Filtering by a predicate that holds of no element gives nothing. */
  lemma {:induction false} NoneMatchFiltersEmpty(rs: seq<Report>, p: Report -> bool)
    requires forall i :: 0 <= i < |rs| ==> !p(rs[i])
    ensures Filter(rs, p) == []
    decreases |rs|
  {
    if |rs| > 0 {
      NoneMatchFiltersEmpty(rs[1..], p);
    }
  }
}

=== FILE: store.dfy ===
/** The helpdesk's client-side store (`useUserStore`): one state record
    holding the session, the user directory, the reports, the
    notifications and the chat, and one transition function per store
    action. Every `Date.now()` id and every `new Date()` timestamp the
    source reads is an explicit parameter here (`id`, `now`). */
module Store {
  import opened Optional
  import opened Types
  import opened Seqs
  import opened Text

  datatype State = State(
    user: Option<User>,
    notifications: seq<Notification>,
    isAuthenticated: bool,
    allUsers: seq<User>,
    allReports: seq<Report>,
    chatMessages: seq<ChatMessage>)

  /** The one password every seeded account accepts. */
  const DemoPassword := "password123"

  /** The three seeded accounts, `initialDummyUsers`. */
  const SeedUsers: seq<User> := [
    User("1", "Admin User", "admin@helpdesk.com", Admin, Some("/admin-avatar.png"), None),
    User("2", "Staff User", "staff@helpdesk.com", Staff, Some("/diverse-staff-avatars.png"), None),
    User("3", "Master Admin", "master@helpdesk.com", Master, Some("/master-avatar.png"), None)
  ]

  /** The seeded reports, `dummyReports`; `createdAt` is the ISO date as epoch milliseconds. */
  const SeedReports: seq<Report> := [
    Report("1", "Server Down Issue", "Main server is not responding",
           Pending, "2", None, 1705312800000, None),
    Report("2", "Email Configuration", "Setup new email accounts for team",
           InProgress, "2", Some("1"), 1705242600000, None),
    Report("3", "Database Backup", "Weekly database backup completed",
           Completed, "2", Some("1"), 1705137300000, None),
    Report("4", "Network Maintenance", "Scheduled network maintenance",
           Completed, "2", None, 1705077900000, None),
    Report("5", "Software Update", "Update all workstation software",
           InProgress, "2", None, 1704972000000, None)
  ]

  /** The state a fresh store starts in. */
  const Initial := State(None, [], false, SeedUsers, SeedReports, [])

  // ---------------------------------------------------------------- session

  datatype LoginResult = LoginResult(state: State, success: bool)

  /** A seeded account has this email. */
  predicate IsSeedEmail(email: string) {
    exists i :: 0 <= i < |SeedUsers| && SeedUsers[i].email == email
  }

  /** `login(email, password)`, without the simulated delay. It looks the
      email up in the seeded accounts, never in the live directory. */
  function Login(s: State, email: string, password: string): (r: LoginResult)
    ensures r.success <==> IsSeedEmail(email) && password == DemoPassword
    ensures r.success ==> r.state.user.Some? && r.state.user.value in SeedUsers
                          && r.state.user.value.email == email
                          && r.state == s.(user := r.state.user, isAuthenticated := true)
    ensures !r.success ==> r.state == s
  {
    match Find(SeedUsers, (u: User) => u.email == email)
    case Some(u) =>
      if password == DemoPassword then LoginResult(s.(user := Some(u), isAuthenticated := true), true)
      else LoginResult(s, false)
    case None => LoginResult(s, false)
  }

  /** `logout()`: ends the session and drops the notifications. */
  function Logout(s: State): (r: State)
    ensures r.user.None? && !r.isAuthenticated && r.notifications == []
    ensures r.allUsers == s.allUsers && r.allReports == s.allReports
            && r.chatMessages == s.chatMessages
  {
    s.(user := None, isAuthenticated := false, notifications := [])
  }

  /** `updateProfile(data)`: merges `data` into the session's copy of the
      user only; the directory entry of the same user is left as it was. */
  function UpdateProfile(s: State, data: UserPatch): (r: State)
    ensures s.user.None? ==> r == s
    ensures s.user.Some? ==> r.user == Some(MergeUser(s.user.value, data))
    ensures r.allUsers == s.allUsers
    ensures r == s.(user := r.user)
  {
    match s.user
    case None => s
    case Some(u) => s.(user := Some(MergeUser(u, data)))
  }

  // ---------------------------------------------------------- notifications

  /** `addNotification(data)`: the new notification goes first. */
  function AddNotification(s: State, data: NotificationDraft, id: string): (r: State)
    ensures |r.notifications| == |s.notifications| + 1
    ensures r.notifications[0] == Notification(id, data.message, data.kind, data.read, data.createdAt)
    ensures r.notifications[1..] == s.notifications
    ensures r == s.(notifications := r.notifications)
  {
    s.(notifications := [Notification(id, data.message, data.kind, data.read, data.createdAt)]
                        + s.notifications)
  }

  /** `markNotificationRead(id)`: sets `read` on every notification with that id. */
  function MarkNotificationRead(s: State, id: string): (r: State)
    ensures |r.notifications| == |s.notifications|
    ensures forall i :: 0 <= i < |s.notifications| ==>
              r.notifications[i] == if s.notifications[i].id == id
                                    then s.notifications[i].(read := true)
                                    else s.notifications[i]
    ensures r == s.(notifications := r.notifications)
  {
    var ns := s.notifications;
    s.(notifications := seq(|ns|, i requires 0 <= i < |ns| =>
                              if ns[i].id == id then ns[i].(read := true) else ns[i]))
  }

  // --------------------------------------------------------- user directory

  /** Whether a session user may see directory entries with role `target`:
      a master sees every non-master, an admin sees staff, nobody else sees anyone. */
  predicate CanSee(viewer: Option<User>, target: Role) {
    viewer.Some? && (match viewer.value.role
                     case Master => target != Master
                     case Admin => target == Staff
                     case Staff => false)
  }

  /** `getAllUsers()`: the directory as the session user's role may see it. */
  function GetAllUsers(s: State): (r: seq<User>)
    ensures IsSubsequence(r, s.allUsers) && |r| <= |s.allUsers|
    ensures forall i :: 0 <= i < |r| ==> CanSee(s.user, r[i].role)
    ensures forall i :: 0 <= i < |s.allUsers| && CanSee(s.user, s.allUsers[i].role)
                        ==> s.allUsers[i] in r
  {
    if s.user.Some? && s.user.value.role == Master then
      var p := (u: User) => u.role != Master;
      FilterIsSubsequence(s.allUsers, p);
      Filter(s.allUsers, p)
    else if s.user.Some? && s.user.value.role == Admin then
      var p := (u: User) => u.role == Staff;
      FilterIsSubsequence(s.allUsers, p);
      Filter(s.allUsers, p)
    else
      []
  }

  /** `addUser(data)`: appends the new user with the fresh id. */
  function AddUser(s: State, data: UserDraft, id: string): (r: State)
    ensures |r.allUsers| == |s.allUsers| + 1
    ensures r.allUsers[..|s.allUsers|] == s.allUsers
    ensures r.allUsers[|s.allUsers|]
            == User(id, data.name, data.email, data.role, data.avatar, data.address)
    ensures r == s.(allUsers := r.allUsers)
  {
    s.(allUsers := s.allUsers + [User(id, data.name, data.email, data.role, data.avatar, data.address)])
  }

  /** `updateUser(id, data)`: merges `data` into every directory entry with that id. */
  function UpdateUser(s: State, id: string, data: UserPatch): (r: State)
    ensures |r.allUsers| == |s.allUsers|
    ensures forall i :: 0 <= i < |s.allUsers| && s.allUsers[i].id != id
                        ==> r.allUsers[i] == s.allUsers[i]
    ensures forall i :: 0 <= i < |s.allUsers| && s.allUsers[i].id == id
                        ==> r.allUsers[i] == MergeUser(s.allUsers[i], data)
    ensures r == s.(allUsers := r.allUsers)
  {
    var us := s.allUsers;
    s.(allUsers := seq(|us|, i requires 0 <= i < |us| =>
                         if us[i].id == id then MergeUser(us[i], data) else us[i]))
  }

  /** `deleteUser(id)`: drops every directory entry with that id; reports
      that name the user as creator or assignee are kept as they are. */
  function DeleteUser(s: State, id: string): (r: State)
    ensures forall i :: 0 <= i < |r.allUsers| ==> r.allUsers[i].id != id
    ensures forall i :: 0 <= i < |s.allUsers| && s.allUsers[i].id != id
                        ==> s.allUsers[i] in r.allUsers
    ensures IsSubsequence(r.allUsers, s.allUsers)
    ensures r == s.(allUsers := r.allUsers)
  {
    var p := (u: User) => u.id != id;
    FilterIsSubsequence(s.allUsers, p);
    s.(allUsers := Filter(s.allUsers, p))
  }

  // ---------------------------------------------------------------- reports

  /** The text of the notification `addReport` emits. */
  function CreatedMessage(title: string): string {
    "Laporan baru \"" + title + "\" telah dibuat."
  }

  /** The text of the notification `updateReport` emits. */
  function UpdatedMessage(title: string, status: Status): string {
    "Laporan \"" + title + "\" diperbarui ke status: " + StatusName(status) + "."
  }

  /** The report `addReport` stores: the caller's fields, the fresh id and
      clock, and status `pending` whatever the caller asked for. */
  function NewReport(data: ReportDraft, id: string, now: int): (r: Report)
    ensures r.status == Pending
    ensures r.id == id && r.createdAt == now
    ensures r.title == data.title && r.description == data.description
            && r.createdBy == data.createdBy && r.assignedTo == data.assignedTo
            && r.updatedAt == data.updatedAt
  {
    Report(id, data.title, data.description, Pending, data.createdBy, data.assignedTo,
           now, data.updatedAt)
  }

  /** `addReport(data)`: the new report goes first, then one unread info
      notification naming it goes first in the notifications. */
  function AddReport(s: State, data: ReportDraft, id: string, noteId: string, now: int): (r: State)
    ensures |r.allReports| == |s.allReports| + 1
    ensures r.allReports[0].status == Pending
    ensures r.allReports[0] == NewReport(data, id, now)
    ensures r.allReports[1..] == s.allReports
    ensures |r.notifications| == |s.notifications| + 1
    ensures r.notifications[1..] == s.notifications
    ensures r.notifications[0]
            == Notification(noteId, CreatedMessage(data.title), Info, false, now)
    ensures r == s.(allReports := r.allReports, notifications := r.notifications)
  {
    var s1 := s.(allReports := [NewReport(data, id, now)] + s.allReports);
    AddNotification(s1, NotificationDraft(CreatedMessage(data.title), Info, false, now), noteId)
  }

  /** A report after `updateReport` merged `data` into it: `updatedAt` is
      stamped after the spread, so a caller-supplied value never survives. */
  function Stamped(r: Report, data: ReportPatch, now: int): (u: Report)
    ensures u.updatedAt == Some(now)
    ensures u == MergeReport(r, data).(updatedAt := Some(now))
  {
    MergeReport(r, data).(updatedAt := Some(now))
  }

  /** The report list after `updateReport(id, data)` has merged. */
  function UpdatedReports(rs: seq<Report>, id: string, data: ReportPatch, now: int): (r: seq<Report>)
    ensures |r| == |rs|
    ensures forall i :: 0 <= i < |rs| && rs[i].id != id ==> r[i] == rs[i]
    ensures forall i :: 0 <= i < |rs| && rs[i].id == id ==> r[i] == Stamped(rs[i], data, now)
  {
    seq(|rs|, i requires 0 <= i < |rs| =>
          if rs[i].id == id then Stamped(rs[i], data, now) else rs[i])
  }

  /** Some report carries this id. */
  predicate HasReport(rs: seq<Report>, id: string) {
    exists i :: 0 <= i < |rs| && rs[i].id == id
  }

  /** `updateReport(id, data)`: merges into every report with that id and
      stamps it, then, if a report with that id can still be found, adds a
      notification with its title and new status. */
  function UpdateReport(s: State, id: string, data: ReportPatch, now: int, noteId: string): (r: State)
    ensures r.allReports == UpdatedReports(s.allReports, id, data, now)
    ensures HasReport(s.allReports, id) && KeepsId(data.id, id) ==>
              |r.notifications| == |s.notifications| + 1
              && r.notifications[1..] == s.notifications
              && r.notifications[0].kind == Info && !r.notifications[0].read
              && GetReportById(r, id).Some?
              && r.notifications[0].message
                 == UpdatedMessage(GetReportById(r, id).value.title, GetReportById(r, id).value.status)
    ensures !(HasReport(s.allReports, id) && KeepsId(data.id, id)) ==>
              r.notifications == s.notifications
    ensures r == s.(allReports := r.allReports, notifications := r.notifications)
  {
    var rs := UpdatedReports(s.allReports, id, data, now);
    var s1 := s.(allReports := rs);
    assert forall i :: 0 <= i < |rs| && s.allReports[i].id == id && KeepsId(data.id, id)
                       ==> rs[i].id == id;
    match GetReportById(s1, id)
    case Some(u) =>
      AddNotification(s1, NotificationDraft(UpdatedMessage(u.title, u.status), Info, false, now), noteId)
    case None =>
      s1
  }

  /** `getReportById(id)`: the first report with that id, if any. */
  function GetReportById(s: State, id: string): (r: Option<Report>)
    ensures r.Some? <==> HasReport(s.allReports, id)
    ensures r.Some? ==> r.value.id == id && r.value in s.allReports
    ensures r.Some? ==> exists i :: 0 <= i < |s.allReports| && s.allReports[i] == r.value
                                    && forall j :: 0 <= j < i ==> s.allReports[j].id != id
  {
    Find(s.allReports, (x: Report) => x.id == id)
  }

  /** `getAllReports()`: every report in store order. Unlike
      `getAllUsers()` it applies no role filter: every caller sees the
      whole list. */
  function GetAllReports(s: State): (r: seq<Report>)
    ensures r == s.allReports
  {
    s.allReports
  }

  // ------------------------------------------------------------------- chat

  /** `addChatMessage(data)`: appends with the fresh id and the current time. */
  function AddChatMessage(s: State, data: ChatDraft, id: string, now: int): (r: State)
    ensures |r.chatMessages| == |s.chatMessages| + 1
    ensures r.chatMessages[..|s.chatMessages|] == s.chatMessages
    ensures r.chatMessages[|s.chatMessages|]
            == ChatMessage(id, data.senderId, data.senderName, data.message, now)
    ensures r == s.(chatMessages := r.chatMessages)
  {
    s.(chatMessages := s.chatMessages + [ChatMessage(id, data.senderId, data.senderName, data.message, now)])
  }

  /** `getChatMessages()`: the whole global conversation, in append order,
      with no filter by sender or by reader. */
  function GetChatMessages(s: State): (r: seq<ChatMessage>)
    ensures r == s.chatMessages
  {
    s.chatMessages
  }

  // ------------------------------------------------------- session guards

  /** The guard every protected page applies before rendering:
      `isAuthenticated && user?.role === role`. */
  predicate SessionHasRole(s: State, role: Role) {
    s.isAuthenticated && s.user.Some? && s.user.value.role == role
  }
}

=== FILE: store_laws.dfy ===
/** Properties of the store that relate several actions: round trips,
    idempotence, the not-found cases that change nothing, ordering of the
    notification and chat lists, and the two quirks of the session (login
    consults only the seeded accounts; a profile edit leaves the directory
    entry behind). */
module StoreLaws {
  import opened Optional
  import opened Types
  import opened Seqs
  import opened Text
  import opened Store

  // ---------------------------------------------------------------- session

  /** The seeded accounts log in with the shared password; a wrong password
      or an unknown email is refused and leaves the state as it was. */
  lemma SeedLogins(s: State)
    ensures Login(s, "admin@helpdesk.com", "password123").state.user == Some(SeedUsers[0])
    ensures Login(s, "staff@helpdesk.com", "password123").state.user == Some(SeedUsers[1])
    ensures Login(s, "master@helpdesk.com", "password123").state.user == Some(SeedUsers[2])
    ensures Login(s, "admin@helpdesk.com", "wrong") == LoginResult(s, false)
    ensures Login(s, "nobody@x.com", "password123") == LoginResult(s, false)
  {
    assert SeedUsers[0].email == "admin@helpdesk.com";
    assert SeedUsers[1].email == "staff@helpdesk.com";
    assert SeedUsers[2].email == "master@helpdesk.com";
    assert !IsSeedEmail("nobody@x.com");
  }

  /** Login never consults the live directory: whatever the directory
      holds, the outcome is the same, so an account created with `addUser`
      under a new email can never log in. */
  lemma LoginIgnoresDirectory(s: State, users: seq<User>, d: UserDraft, id: string, password: string)
    ensures Login(s.(allUsers := users), d.email, password).success
            == Login(s, d.email, password).success
    ensures !IsSeedEmail(d.email) ==> !Login(AddUser(s, d, id), d.email, password).success
  {
  }

  /** Logging in and out again returns to a signed-out session with the
      directory, reports and chat untouched and no notifications left. */
  lemma LoginLogout(s: State, email: string, password: string)
    ensures Logout(Login(s, email, password).state)
            == s.(user := None, isAuthenticated := false, notifications := [])
  {
  }

  /** After a profile edit the session's copy and the directory entry of
      the same user disagree: the staff account renamed through its profile
      still carries its old name in the directory. */
  lemma ProfileDivergesFromDirectory()
    ensures var s1 := Login(Initial, "staff@helpdesk.com", DemoPassword).state;
            var s2 := UpdateProfile(s1, UserPatch(Keep, Put("Budi"), Keep, Keep, Keep, Keep));
            && s2.user.Some? && s2.user.value.id == "2" && s2.user.value.name == "Budi"
            && s2.allUsers[1].id == "2" && s2.allUsers[1].name == "Staff User"
  {
    SeedLogins(Initial);
  }

  // --------------------------------------------------------- user directory

  /** Updating an id that no directory entry carries changes nothing. */
  lemma UpdateUserUnknownId(s: State, id: string, data: UserPatch)
    requires forall i :: 0 <= i < |s.allUsers| ==> s.allUsers[i].id != id
    ensures UpdateUser(s, id, data) == s
  {
    assert UpdateUser(s, id, data).allUsers == s.allUsers;
  }

  /** Applying the same user update twice is the same as applying it once. */
  lemma UpdateUserIdempotent(s: State, id: string, data: UserPatch)
    ensures UpdateUser(UpdateUser(s, id, data), id, data) == UpdateUser(s, id, data)
  {
    var s1 := UpdateUser(s, id, data);
    var s2 := UpdateUser(s1, id, data);
    forall i | 0 <= i < |s.allUsers|
      ensures s2.allUsers[i] == s1.allUsers[i]
    {
      if s.allUsers[i].id == id {
        MergeLaws(SeedReports[0], s.allUsers[i], data, NoReportChange);
      }
    }
    assert s2.allUsers == s1.allUsers;
  }

  /** Deleting an id that no directory entry carries changes nothing. */
  lemma DeleteUserUnknownId(s: State, id: string)
    requires forall i :: 0 <= i < |s.allUsers| ==> s.allUsers[i].id != id
    ensures DeleteUser(s, id) == s
  {
    FilterAll(s.allUsers, (u: User) => u.id != id);
  }

  /** Deleting removes exactly the entries with that id and keeps the rest in order. */
  lemma DeleteUserRemovesExactly(s: State, id: string)
    ensures |DeleteUser(s, id).allUsers|
            == |s.allUsers| - Count(s.allUsers, (u: User) => u.id == id)
    ensures IsSubsequence(DeleteUser(s, id).allUsers, s.allUsers)
  {
    var keep := (u: User) => u.id != id;
    var drop := (u: User) => u.id == id;
    FilterLength(s.allUsers, keep);
    CountSplit(s.allUsers, keep, drop, (u: User) => true);
    CountAll(s.allUsers, (u: User) => true);
  }

  /** Adding a user under a fresh id and deleting that id restores the directory. */
  lemma AddThenDeleteUser(s: State, d: UserDraft, id: string)
    requires forall i :: 0 <= i < |s.allUsers| ==> s.allUsers[i].id != id
    ensures DeleteUser(AddUser(s, d, id), id) == s
  {
    var p := (u: User) => u.id != id;
    var added := User(id, d.name, d.email, d.role, d.avatar, d.address);
    FilterAppend(s.allUsers, [added], p);
    FilterAll(s.allUsers, p);
    assert Filter([added], p) == [];
    assert s.allUsers + [] == s.allUsers;
  }

  // ---------------------------------------------------------------- reports

  /** The notification `addReport` emits names the report's title. */
  lemma CreatedMessageNamesTitle(title: string)
    ensures Contains(CreatedMessage(title), title)
  {
    var m := CreatedMessage(title);
    var lead := "Laporan baru \"";
    assert m == lead + title + "\" telah dibuat.";
    assert m[|lead|..|lead| + |title|] == title;
    assert OccursAt(m, title, |lead|);
  }

  /** The notification `updateReport` emits names the title and the new status. */
  lemma UpdatedMessageNamesTitleAndStatus(title: string, status: Status)
    ensures Contains(UpdatedMessage(title, status), title)
    ensures Contains(UpdatedMessage(title, status), StatusName(status))
  {
    var m := UpdatedMessage(title, status);
    var lead := "Laporan \"";
    var mid := "\" diperbarui ke status: ";
    var name := StatusName(status);
    assert m == lead + title + mid + name + ".";
    assert m[|lead|..|lead| + |title|] == title;
    assert OccursAt(m, title, |lead|);
    var k := |lead| + |title| + |mid|;
    assert m[k..k + |name|] == name;
    assert OccursAt(m, name, k);
  }

  /** A report created with status `completed` is stored as `pending`, and
      the notification it raises names its title. */
  lemma AddReportForcesPending(s: State, id: string, noteId: string, now: int)
    ensures var r := AddReport(s, ReportDraft("T", "D", Completed, "2", None, None), id, noteId, now);
            && r.allReports[0].status == Pending
            && r.allReports[0].id == id
            && Contains(r.notifications[0].message, "T")
  {
    CreatedMessageNamesTitle("T");
  }

  /** A freshly added report is what `getReportById` returns for its id. */
  lemma AddReportThenGet(s: State, d: ReportDraft, id: string, noteId: string, now: int)
    ensures GetReportById(AddReport(s, d, id, noteId, now), id) == Some(NewReport(d, id, now))
  {
  }

  /** Updating an id that no report carries changes nothing at all, and in
      particular adds no notification. */
  lemma UpdateReportUnknownId(s: State, id: string, data: ReportPatch, now: int, noteId: string)
    requires !HasReport(s.allReports, id)
    ensures UpdateReport(s, id, data, now, noteId) == s
  {
    assert UpdatedReports(s.allReports, id, data, now) == s.allReports;
  }

  /** After an update of an existing report, `getReportById` finds a report
      carrying the new status and stamped with the update time. */
  lemma UpdateReportThenGet(s: State, id: string, data: ReportPatch, now: int, noteId: string)
    requires HasReport(s.allReports, id) && KeepsId(data.id, id)
    ensures var g := GetReportById(UpdateReport(s, id, data, now, noteId), id);
            && g.Some?
            && g.value.updatedAt == Some(now)
            && (data.status.Put? ==> g.value.status == data.status.value)
  {
    var r := UpdateReport(s, id, data, now, noteId);
    var i :| 0 <= i < |s.allReports| && s.allReports[i].id == id;
    assert r.allReports[i].id == id;
    var g := GetReportById(r, id);
    var j :| 0 <= j < |r.allReports| && r.allReports[j] == g.value;
    assert s.allReports[j].id == id;
  }

  /** When the clock does not run backwards and the update leaves
      `createdAt` alone, every report keeps `updatedAt >= createdAt`. */
  lemma UpdatedNotBeforeCreated(s: State, id: string, data: ReportPatch, now: int, noteId: string)
    requires forall i :: 0 <= i < |s.allReports| ==> s.allReports[i].createdAt <= now
    requires forall i :: 0 <= i < |s.allReports| && s.allReports[i].updatedAt.Some?
                         ==> s.allReports[i].createdAt <= s.allReports[i].updatedAt.value
    requires data.createdAt.Keep?
    ensures var r := UpdateReport(s, id, data, now, noteId);
            forall i :: 0 <= i < |r.allReports| && r.allReports[i].updatedAt.Some?
                        ==> r.allReports[i].createdAt <= r.allReports[i].updatedAt.value
  {
  }

  /** Applying the same report update twice gives the same report list as once. */
  lemma UpdateReportsIdempotent(rs: seq<Report>, id: string, data: ReportPatch, now: int)
    ensures UpdatedReports(UpdatedReports(rs, id, data, now), id, data, now)
            == UpdatedReports(rs, id, data, now)
  {
    var r1 := UpdatedReports(rs, id, data, now);
    var r2 := UpdatedReports(r1, id, data, now);
    forall i | 0 <= i < |rs|
      ensures r2[i] == r1[i]
    {
      if rs[i].id == id {
        MergeLaws(rs[i], SeedUsers[0], UserPatch(Keep, Keep, Keep, Keep, Keep, Keep), data);
      }
    }
    assert r2 == r1;
  }

  // ---------------------------------------------------------- notifications

  /** Marking a notification read twice is the same as marking it once. */
  lemma MarkReadIdempotent(s: State, id: string)
    ensures MarkNotificationRead(MarkNotificationRead(s, id), id) == MarkNotificationRead(s, id)
  {
    var s1 := MarkNotificationRead(s, id);
    assert MarkNotificationRead(s1, id).notifications == s1.notifications;
  }

  /** Notifications are newest first: after two additions the later one leads. */
  lemma NotificationsNewestFirst(s: State, a: NotificationDraft, ia: string,
                                 b: NotificationDraft, ib: string)
    ensures var r := AddNotification(AddNotification(s, a, ia), b, ib);
            r.notifications == [Notification(ib, b.message, b.kind, b.read, b.createdAt),
                                Notification(ia, a.message, a.kind, a.read, a.createdAt)]
                               + s.notifications
  {
  }

  // ------------------------------------------------------------------- chat

  /** Messages are listed in non-decreasing time order. */
  predicate Chronological(ms: seq<ChatMessage>) {
    forall i, j :: 0 <= i < j < |ms| ==> ms[i].timestamp <= ms[j].timestamp
  }

  /** Appending at a time no earlier than the last message keeps the
      conversation chronological. */
  lemma AddChatKeepsChronological(s: State, d: ChatDraft, id: string, now: int)
    requires Chronological(s.chatMessages)
    requires |s.chatMessages| > 0 ==> s.chatMessages[|s.chatMessages| - 1].timestamp <= now
    ensures Chronological(GetChatMessages(AddChatMessage(s, d, id, now)))
  {
    var ms := AddChatMessage(s, d, id, now).chatMessages;
    forall i, j | 0 <= i < j < |ms|
      ensures ms[i].timestamp <= ms[j].timestamp
    {
      if j == |s.chatMessages| && i < j {
        assert ms[i] == s.chatMessages[i];
        assert s.chatMessages[i].timestamp <= s.chatMessages[|s.chatMessages| - 1].timestamp;
      }
    }
  }

  /** Appending A and then B lists A before B, after everything earlier. */
  lemma ChatAppendOrder(s: State, a: ChatDraft, ia: string, ta: int, b: ChatDraft, ib: string, tb: int)
    ensures GetChatMessages(AddChatMessage(AddChatMessage(s, a, ia, ta), b, ib, tb))
            == s.chatMessages + [ChatMessage(ia, a.senderId, a.senderName, a.message, ta),
                                 ChatMessage(ib, b.senderId, b.senderName, b.message, tb)]
  {
  }
}

=== FILE: text.dfy ===
/** The JavaScript string operations the helpdesk uses: `toLowerCase`
    (restricted to ASCII letters), `includes`, `trim` and `substring`. */
module Text {

  /** An upper-case ASCII letter. */
  predicate IsUpper(c: char) {
    'A' <= c <= 'Z'
  }

  /** `toLowerCase` on one character, ASCII letters only. */
  function LowerChar(c: char): (r: char)
    ensures !IsUpper(r)
    ensures !IsUpper(c) ==> r == c
    ensures IsUpper(c) ==> r as int == c as int + 32
  {
    if IsUpper(c) then (c as int + 32) as char else c
  }

  /** `s.toLowerCase()` with ASCII case folding. */
  function Lower(s: string): (r: string)
    ensures |r| == |s|
    ensures forall i :: 0 <= i < |r| ==> !IsUpper(r[i])
    ensures forall i :: 0 <= i < |s| && !IsUpper(s[i]) ==> r[i] == s[i]
    ensures forall i :: 0 <= i < |s| && IsUpper(s[i]) ==> r[i] as int == s[i] as int + 32
  {
    seq(|s|, i requires 0 <= i < |s| => LowerChar(s[i]))
  }

  /** Lower-casing twice is the same as lower-casing once. */
  lemma LowerIdempotent(s: string)
    ensures Lower(Lower(s)) == Lower(s)
  {
    assert forall i :: 0 <= i < |s| ==> Lower(Lower(s))[i] == Lower(s)[i];
  }

  /** `prefix` occurs at the start of `s`. */
  predicate StartsWith(s: string, prefix: string) {
    |prefix| <= |s| && s[..|prefix|] == prefix
  }

  /** `needle` occurs in `hay` at position `i`. */
  predicate OccursAt(hay: string, needle: string, i: int) {
    0 <= i && i + |needle| <= |hay| && hay[i..i + |needle|] == needle
  }

  /** `hay.includes(needle)`, scanning start positions left to right; the
      scan succeeds exactly when the needle occurs at some position. */
  function Contains(hay: string, needle: string): (r: bool)
    ensures r <==> exists i :: OccursAt(hay, needle, i)
    decreases |hay|
  {
    OccursShift(hay, needle);
    StartsWith(hay, needle) || (|hay| > 0 && Contains(hay[1..], needle))
  }

  /** An occurrence is either at the start or an occurrence in the tail. */
  lemma OccursShift(hay: string, needle: string)
    ensures (exists i :: OccursAt(hay, needle, i))
            <==> StartsWith(hay, needle) || (|hay| > 0 && exists i :: OccursAt(hay[1..], needle, i))
  {
    if exists i :: OccursAt(hay, needle, i) {
      var i :| OccursAt(hay, needle, i);
      if i > 0 {
        assert hay[1..][i - 1..i - 1 + |needle|] == hay[i..i + |needle|];
        assert OccursAt(hay[1..], needle, i - 1);
      } else {
        assert StartsWith(hay, needle);
      }
    }
    if |hay| > 0 && exists i :: OccursAt(hay[1..], needle, i) {
      var i :| OccursAt(hay[1..], needle, i);
      assert hay[1..][i..i + |needle|] == hay[i + 1..i + 1 + |needle|];
      assert OccursAt(hay, needle, i + 1);
    }
    if StartsWith(hay, needle) {
      assert OccursAt(hay, needle, 0);
    }
  }

  /** Every string includes the empty string. */
  lemma ContainsEmpty(hay: string)
    ensures Contains(hay, "")
  {
  }

  /** `String.prototype.trim` strips the ECMAScript WhiteSpace and
      LineTerminator code points: TAB, LF, VT, FF, CR, SPACE, NBSP, the
      Unicode space separators, LS, PS and the byte-order mark. */
  predicate IsWhite(c: char) {
    var n := c as int;
    n == 9 || n == 10 || n == 11 || n == 12 || n == 13 || n == 32 || n == 0xA0
    || n == 0x1680 || (0x2000 <= n <= 0x200A) || n == 0x2028 || n == 0x2029
    || n == 0x202F || n == 0x205F || n == 0x3000 || n == 0xFEFF
  }

  /** Index of the first non-white character at or after `from`. */
  function SkipWhite(s: string, from: nat): (k: nat)
    requires from <= |s|
    ensures from <= k <= |s|
    ensures forall i :: from <= i < k ==> IsWhite(s[i])
    ensures k < |s| ==> !IsWhite(s[k])
    decreases |s| - from
  {
    if from < |s| && IsWhite(s[from]) then SkipWhite(s, from + 1) else from
  }

  /** End of `s[lo..hi]` once trailing white characters are dropped. */
  function SkipWhiteBack(s: string, lo: nat, hi: nat): (k: nat)
    requires lo <= hi <= |s|
    ensures lo <= k <= hi
    ensures forall i :: k <= i < hi ==> IsWhite(s[i])
    ensures k > lo ==> !IsWhite(s[k - 1])
    decreases hi
  {
    if hi > lo && IsWhite(s[hi - 1]) then SkipWhiteBack(s, lo, hi - 1) else hi
  }

  /** `s.trim()`: `s` without its leading and trailing white characters. */
  function Trim(s: string): (r: string)
    ensures exists a, b :: 0 <= a <= b <= |s| && r == s[a..b]
                         && (forall i :: 0 <= i < a ==> IsWhite(s[i]))
                         && (forall i :: b <= i < |s| ==> IsWhite(s[i]))
    ensures |r| > 0 ==> !IsWhite(r[0]) && !IsWhite(r[|r| - 1])
    ensures r == "" <==> forall i :: 0 <= i < |s| ==> IsWhite(s[i])
  {
    var a := SkipWhite(s, 0);
    var b := SkipWhiteBack(s, a, |s|);
    assert forall i :: a <= i < b ==> s[a..b][i - a] == s[i];
    s[a..b]
  }

  /** Trimming an already trimmed string changes nothing. */
  lemma TrimIdempotent(s: string)
    ensures Trim(Trim(s)) == Trim(s)
  {
    var t := Trim(s);
    if |t| > 0 {
      assert SkipWhite(t, 0) == 0;
      assert SkipWhiteBack(t, 0, |t|) == |t|;
      assert t[0..|t|] == t;
    }
  }

  /** `s.substring(0, n)` for `n >= 0`: the first `n` characters, or all of
      `s` when it is shorter. */
  function Prefix(s: string, n: nat): (r: string)
    ensures |r| == if |s| < n then |s| else n
    ensures StartsWith(s, r)
  {
    if |s| < n then s else s[..n]
  }
}

=== FILE: types.dfy ===
/** The helpdesk's domain records: users, reports, notifications, chat
    messages and FAQ entries, plus the partial-update records that the
    store's `updateX(id, data: Partial<X>)` operations merge. Timestamps are
    integer milliseconds since the epoch, so that ordering is exact. */
module Types {
  import opened Optional

  datatype Role = Admin | Staff | Master

  datatype Status = Completed | InProgress | Pending | Rejected

  datatype NoteKind = Info | Success | Warning | Error

  /** The string a role is written as, e.g. in `/${role}/dashboard`. */
  function RoleName(r: Role): string {
    match r
    case Admin => "admin"
    case Staff => "staff"
    case Master => "master"
  }

  /** The string a status is stored and compared as. */
  function StatusName(s: Status): string {
    match s
    case Completed => "completed"
    case InProgress => "in-progress"
    case Pending => "pending"
    case Rejected => "rejected"
  }

  /** Distinct statuses have distinct names, so comparing names compares statuses. */
  lemma StatusNameInjective(a: Status, b: Status)
    ensures StatusName(a) == StatusName(b) <==> a == b
  {
  }

  /** The name `all` used by the reports filter is no status name. */
  lemma AllIsNoStatus(s: Status)
    ensures StatusName(s) != "all"
  {
  }

  datatype User = User(
    id: string,
    name: string,
    email: string,
    role: Role,
    avatar: Option<string>,
    address: Option<string>)

  datatype Report = Report(
    id: string,
    title: string,
    description: string,
    status: Status,
    createdBy: string,
    assignedTo: Option<string>,
    createdAt: int,
    updatedAt: Option<int>)

  datatype Notification = Notification(
    id: string,
    message: string,
    kind: NoteKind,
    read: bool,
    createdAt: int)

  datatype ChatMessage = ChatMessage(
    id: string,
    senderId: string,
    senderName: string,
    message: string,
    timestamp: int)

  datatype FaqItem = FaqItem(id: string, question: string, answer: string)

  /** `Omit<User, "id">`: a user before the store gives it an id. */
  datatype UserDraft = UserDraft(
    name: string,
    email: string,
    role: Role,
    avatar: Option<string>,
    address: Option<string>)

  /** `Omit<Report, "id" | "createdAt">`: what a caller of `addReport` supplies. */
  datatype ReportDraft = ReportDraft(
    title: string,
    description: string,
    status: Status,
    createdBy: string,
    assignedTo: Option<string>,
    updatedAt: Option<int>)

  /** `Omit<Notification, "id">`. */
  datatype NotificationDraft = NotificationDraft(
    message: string,
    kind: NoteKind,
    read: bool,
    createdAt: int)

  /** `Omit<ChatMessage, "id" | "timestamp">`. */
  datatype ChatDraft = ChatDraft(senderId: string, senderName: string, message: string)

  /** One key of a `Partial<T>`: absent (`Keep`), or present with a value
      that the spread `{ ...old, ...data }` copies over the old one. For an
      optional field, `Put(None)` is a key present with value `undefined`,
      which clears the field. */
  datatype Patch<T> = Keep | Put(value: T) {
    function Over(prev: T): (r: T)
      ensures Keep? ==> r == prev
      ensures Put? ==> r == value
    {
      if Put? then value else prev
    }
  }

  /** `Partial<User>`. */
  datatype UserPatch = UserPatch(
    id: Patch<string>,
    name: Patch<string>,
    email: Patch<string>,
    role: Patch<Role>,
    avatar: Patch<Option<string>>,
    address: Patch<Option<string>>)

  /** `Partial<Report>`. */
  datatype ReportPatch = ReportPatch(
    id: Patch<string>,
    title: Patch<string>,
    description: Patch<string>,
    status: Patch<Status>,
    createdBy: Patch<string>,
    assignedTo: Patch<Option<string>>,
    createdAt: Patch<int>,
    updatedAt: Patch<Option<int>>)

  /** The empty `Partial<Report>`, `{}`. */
  const NoReportChange := ReportPatch(Keep, Keep, Keep, Keep, Keep, Keep, Keep, Keep)

  /** `{ ...u, ...data }` for users. */
  function MergeUser(u: User, p: UserPatch): User {
    User(p.id.Over(u.id), p.name.Over(u.name), p.email.Over(u.email),
         p.role.Over(u.role), p.avatar.Over(u.avatar), p.address.Over(u.address))
  }

  /** `{ ...r, ...data }` for reports. */
  function MergeReport(r: Report, p: ReportPatch): Report {
    Report(p.id.Over(r.id), p.title.Over(r.title), p.description.Over(r.description),
           p.status.Over(r.status), p.createdBy.Over(r.createdBy),
           p.assignedTo.Over(r.assignedTo), p.createdAt.Over(r.createdAt),
           p.updatedAt.Over(r.updatedAt))
  }

  /** A patch that does not move a record to another id. */
  predicate KeepsId(p: Patch<string>, id: string) {
    p.Keep? || p.value == id
  }

  /** Merging the empty patch is the identity, and a second merge of the
      same patch adds nothing (`{...{...r, ...d}, ...d}` equals `{...r, ...d}`). */
  lemma MergeLaws(r: Report, u: User, up: UserPatch, rp: ReportPatch)
    ensures MergeReport(r, NoReportChange) == r
    ensures MergeReport(MergeReport(r, rp), rp) == MergeReport(r, rp)
    ensures MergeUser(MergeUser(u, up), up) == MergeUser(u, up)
  {
  }
}

=== FILE: users_page.dfy ===
/** The user-management pages. The admin page manages staff accounts and
    its form's role is fixed to staff; the master page manages admins and
    staff and lets the form pick between the two. Both pages list
    `getAllUsers()`, edit through one dialog that either adds or updates,
    and delete after a confirmation. */
module UsersPage {
  import opened Optional
  import opened Types
  import opened Seqs
  import opened Store

  /** The dialog's fields. */
  datatype UserForm = UserForm(name: string, email: string, role: Role, address: string)

  /** The form after a submit or a cancel: empty, with role staff. */
  const BlankForm := UserForm("", "", Staff, "")

  /** The page's dialog state. */
  datatype Page = Page(showModal: bool, editing: Option<User>, form: UserForm)

  const Closed := Page(false, None, BlankForm)

  /** The "add" button: only opens the dialog, with whatever the form holds. */
  function OpenAdd(p: Page): (r: Page)
    ensures r.showModal && r.editing == p.editing && r.form == p.form
  {
    p.(showModal := true)
  }

  /** Typing into the name, email and address fields. */
  function EditFields(p: Page, name: string, email: string, address: string): (r: Page)
    ensures r.form == UserForm(name, email, p.form.role, address)
    ensures r.showModal == p.showModal && r.editing == p.editing
  {
    p.(form := p.form.(name := name, email := email, address := address))
  }

  /** The two entries of the master page's role select. */
  datatype RoleChoice = ChooseStaff | ChooseAdmin

  /** The master page's role select. */
  function SelectRole(p: Page, c: RoleChoice): (r: Page)
    ensures r.form.role != Master
    ensures r.form.role == Admin <==> c == ChooseAdmin
    ensures r == p.(form := p.form.(role := r.form.role))
  {
    p.(form := p.form.(role := if c == ChooseAdmin then Admin else Staff))
  }

  /** `handleEdit(user)`: opens the dialog on a copy of the user's fields,
      with a missing address as the empty string. */
  function HandleEdit(p: Page, u: User): (r: Page)
    ensures r.showModal && r.editing == Some(u)
    ensures r.form.name == u.name && r.form.email == u.email && r.form.role == u.role
    ensures r.form.address == OrElse(u.address, "")
  {
    Page(true, Some(u), UserForm(u.name, u.email, u.role, OrElse(u.address, "")))
  }

  /** The `Partial<User>` an edit sends: the four form fields, the address
      always present. */
  function FormPatch(f: UserForm): (r: UserPatch)
    ensures r.id.Keep? && r.avatar.Keep?
    ensures forall u: User :: MergeUser(u, r) == u.(name := f.name, email := f.email, role := f.role,
                                                    address := Some(f.address))
  {
    UserPatch(Keep, Put(f.name), Put(f.email), Put(f.role), Keep, Put(Some(f.address)))
  }

  /** The new account an add creates from the form: no avatar. */
  function FormDraft(f: UserForm): (r: UserDraft)
    ensures r.avatar.None? && r.address == Some(f.address)
    ensures r.name == f.name && r.email == f.email && r.role == f.role
  {
    UserDraft(f.name, f.email, f.role, None, Some(f.address))
  }

  /** `handleSubmit()`: updates the edited account or adds a new one, then
      closes and clears the dialog. */
  function HandleSubmit(s: State, p: Page, id: string): (r: (State, Page))
    ensures r.1 == Closed
    ensures p.editing.Some? ==> r.0 == UpdateUser(s, p.editing.value.id, FormPatch(p.form))
    ensures p.editing.None? ==> r.0 == AddUser(s, FormDraft(p.form), id)
  {
    match p.editing
    case Some(e) => (UpdateUser(s, e.id, FormPatch(p.form)), Closed)
    case None => (AddUser(s, FormDraft(p.form), id), Closed)
  }

  /** The cancel button: closes and clears the dialog. */
  function Cancel(p: Page): (r: Page)
    ensures !r.showModal && r.editing.None? && r.form == BlankForm
  {
    Closed
  }

  /** `handleDelete(userId)`: deletes only after the prompt is confirmed. */
  function HandleDelete(s: State, id: string, confirmed: bool): (r: State)
    ensures confirmed ==> r == DeleteUser(s, id)
    ensures !confirmed ==> r == s
  {
    if confirmed then DeleteUser(s, id) else s
  }

  /** A submit whose form role is not `bad` creates no account with role
      `bad` and turns none into one: every such entry afterwards was
      already in the directory. */
  lemma SubmitAddsNoRole(s: State, p: Page, id: string, bad: Role)
    requires p.form.role != bad
    ensures var after := HandleSubmit(s, p, id).0.allUsers;
            forall i :: 0 <= i < |after| && after[i].role == bad ==> after[i] in s.allUsers
  {
    var after := HandleSubmit(s, p, id).0.allUsers;
    if p.editing.None? {
      forall i | 0 <= i < |after| && after[i].role == bad
        ensures after[i] in s.allUsers
      {
        assert i < |s.allUsers|;
        assert after[i] == after[..|s.allUsers|][i];
      }
    }
  }

  /** On the admin page the form's role is always staff: the initial and the
      cleared form hold staff, and the only users it can be filled from are
      the staff accounts `getAllUsers()` shows an admin. */
  lemma AdminFormStaysStaff(s: State, p: Page, u: User, id: string)
    requires SessionHasRole(s, Admin) && u in GetAllUsers(s)
    ensures BlankForm.role == Staff
    ensures HandleEdit(p, u).form.role == Staff
    ensures HandleSubmit(s, p, id).1.form.role == Staff && Cancel(p).form.role == Staff
  {
  }

  /** On the master page the form's role is never master: edits start from
      the non-master accounts the master sees, and the select offers only
      staff and admin. */
  lemma MasterFormNeverMaster(s: State, p: Page, u: User, c: RoleChoice)
    requires SessionHasRole(s, Master) && u in GetAllUsers(s)
    ensures HandleEdit(p, u).form.role != Master
    ensures SelectRole(p, c).form.role != Master
  {
  }

  /** An account the admin page adds is listed on the admin page right away. */
  lemma AddedStaffIsListed(s: State, p: Page, id: string)
    requires SessionHasRole(s, Admin) && p.editing.None? && p.form.role == Staff
    ensures var s1 := HandleSubmit(s, p, id).0;
            User(id, p.form.name, p.form.email, Staff, None, Some(p.form.address)) in GetAllUsers(s1)
  {
    var s1 := HandleSubmit(s, p, id).0;
    assert s1.allUsers[|s.allUsers|] == User(id, p.form.name, p.form.email, Staff, None, Some(p.form.address));
  }

  /** Opening an account for editing and saving it unchanged keeps the
      account, except that a missing address becomes the empty string. */
  lemma UnchangedEditKeepsUser(s: State, p: Page, i: nat, id: string)
    requires i < |s.allUsers|
    ensures var u := s.allUsers[i];
            HandleSubmit(s, HandleEdit(p, u), id).0.allUsers[i]
            == u.(address := Some(OrElse(u.address, "")))
  {
  }
}
